=== FILE: README.md ===
# YouTube trending dashboard — a Dafny model

This project models the browser side of the YouTube trending dashboard. The
dashboard loads a spreadsheet of trending videos from a web endpoint. It
keeps the rows, the list of available dates and six category buckets. It
shows a ranking table in one of three views: the all-time ranking, one
day's ranking, or the category analysis.

The model covers two versions of the dashboard:

- the modular one: `Utils`, `DataManager`, `TableManager` and
  `ViewManager`;
- the earlier single-script one, `youtube_trending_bk.js` (module `Legacy`).

Every asynchronous step becomes an explicit input:

- the main endpoint's answer is a `MainResponse`;
- the events reaching a script-injection (JSONP) request are a
  `seq<Jsonp.Event>`;
- the clock readings are integers in milliseconds.

The page (buttons, date `<select>`, chart, table) is an immutable value:
`ViewManager.Dashboard` for the modular version and `Legacy.Page` for the
earlier one.

Modules, one per file:

- `Wrappers`: `Option` and `Result`.
- `Seqs`: subsequences, key-based de-duplication, take and drop.
- `Sorting`: a stable insertion sort over a total preorder.
- `Text`: string order, decimal text, trimming, joining and splitting.
- `Rows`: the eleven-column row.
- `Utils`: `utils.js`.
- `Cache`: the data manager's keyed, time-stamped cache.
- `Jsonp`: the one-shot latch around a script request.
- `DataManager`: `data_manager.js`.
- `TableManager`: `table_manager.js`.
- `ViewManager`: `view_manager.js`.
- `Legacy`: `youtube_trending_bk.js`.

## Model

| member | source | states |
|---|---|---|
| Utils.DateOnly | youtube-trending/utils.js:11-14 | A string that starts with `YYYY/MM/DD` gives those ten characters; any other string comes back whole. The result is always a prefix of the input. |
| Utils.DateOnlyIdempotent | youtube-trending/utils.js:11-14 | Applying the date key to a date key changes nothing. So filtering rows by a date taken from the date list matches the rows it came from. |
| Utils.RemoveDuplicatesByUrl | youtube-trending/utils.js:40-43 | The result is a subsequence of the input with pairwise distinct urls. It carries every url of the input. |
| Utils.RemoveDuplicatesKeepsFirst | youtube-trending/utils.js:40-43 | The row kept for each url is the first input row that carries it. |
| Utils.CalculateAverage | youtube-trending/utils.js:59-64 | The result is 0 when no entry is a valid number. Otherwise it is the sum of the valid entries divided by their count. |
| Utils.AverageBetweenBounds | youtube-trending/utils.js:59-64 | The average of a non-empty list lies between any lower and any upper bound of its entries. |
| Utils.PositiveValues | youtube-trending/utils.js:68 | The kept values are exactly the strictly positive values of the column. |
| Utils.PositiveValuesInOrder | youtube-trending/utils.js:68 | The positive values keep the column order: they are a subsequence of the column. |
| Utils.PositiveValuesCounts | youtube-trending/utils.js:68 | Each positive value occurs as often as the column holds it, and no other value occurs. With the order, this is exactly the column filtered by `v > 0`. |
| Utils.GetDataStatistics | youtube-trending/utils.js:67-77 | With no positive value the result is all zeros, and that happens exactly when the whole column is 0. Otherwise min and max are positive values of the column and bound every one of them. The average lies between min and max and is the mean of the positive values. |
| Utils.CategoryColor | youtube-trending/utils.js:22-32 | A listed category gets its fixed colour, and no listed category is grey. Every name outside the list gets the grey default; the inherited property names of a JavaScript object are not modelled (see Left out). |
| Cache.Lookup | youtube-trending/data_manager.js:23-29 | A lookup hits exactly when the key is stored and younger than the time-to-live. A hit returns the stored data. |
| Cache.Put | youtube-trending/data_manager.js:39-42 | Storing adds the key with the data and the time. Every other key is unchanged. |
| Cache.PutThenLookup | youtube-trending/data_manager.js:127-130 | A stored entry is served until its time-to-live elapses. Storing one key leaves the lookup of every other key as it was. |
| Cache.ClearedMisses | youtube-trending/data_manager.js:203-206 | After the cache is cleared every lookup misses. |
| Cache.KeysSeparate | youtube-trending/data_manager.js:66 | The main key never equals a category key. Two category keys are equal only for the same category. |
| Jsonp.Step | youtube-trending/data_manager.js:97-119 | A handler invocation does nothing once the request has completed. Otherwise it completes, cleans up and settles with its own outcome. Consistency is kept: completed iff settled, settled at most once, cleaned up iff completed. |
| Jsonp.Run | youtube-trending/data_manager.js:83-119 | Running a trace keeps the latch consistent. From an open latch, the first event of the trace decides the outcome. |
| Jsonp.FirstEventWins | youtube-trending/data_manager.js:83-119 | From the issued request, the first event settles the promise, and it is settled exactly once. Script, callback and timer are all gone afterwards. |
| Jsonp.LaterEventsIgnored | youtube-trending/data_manager.js:97-119 | Events after the first change nothing, for example a late callback after a timeout. |
| Jsonp.Deliver | youtube-trending/data_manager.js:113-123 | Every request settles exactly once. With no event the armed timer settles it with a timeout. |
| Jsonp.Settlement | youtube-trending/data_manager.js:80-124 | The result is the first event's outcome: data for the callback, a load failure for `onerror`, and a timeout otherwise. |
| DataManager.AvailableDates | youtube-trending/data_manager.js:58-60 | The dates are pairwise distinct and are exactly the date keys of the rows. They are ordered newest first. |
| DataManager.ProcessMainData | youtube-trending/data_manager.js:54-61 | The header row is dropped and the date list is rebuilt from the remaining rows. Buckets and cache are untouched. |
| DataManager.FetchMain | youtube-trending/data_manager.js:18-51 | A request is made exactly when no main entry younger than five minutes is cached. A cache hit returns the cached data. A failed status and a transport failure reject and leave the state unchanged. A success is stored with its time, and the state is processed from it. |
| DataManager.RefetchWithinTtlIsCached | youtube-trending/data_manager.js:22-42 | A second fetch within five minutes of a stored fetch makes no request and returns the same data. Once the five minutes have passed it requests again. |
| DataManager.ClearCache | youtube-trending/data_manager.js:203-206 | Every lookup misses afterwards. The data, buckets and dates are untouched. |
| DataManager.FetchCategory | youtube-trending/data_manager.js:64-139 | A live ten-minute entry answers at once. Otherwise the script request's settlement is the result, and a success is cached under the category key. A rejection leaves the cache unchanged. |
| DataManager.FetchCategoryAsWritten | youtube-trending/data_manager.js:64-79 | As written, the result succeeds exactly when a live entry is cached. Any miss rejects with the undeclared-`response` error, and the cache is never written. |
| DataManager.ShapeBuckets | youtube-trending/data_manager.js:149-154 | One bucket per category, in order. Each carries its display name (`All` is shown as 全体), the answer without its header row, its colour and the raw name. |
| DataManager.AllOk | youtube-trending/data_manager.js:146 | The list succeeds exactly when every element does, and then keeps their values in order. A failure is the failure of some element. |
| DataManager.FetchMultipleCategories | youtube-trending/data_manager.js:142-162 | It succeeds only when all six categories succeed, and it then replaces the buckets with them. A failure is one category's failure and leaves the buckets as they were. The rows, the dates and the per-category cache writes are kept either way. |
| DataManager.FetchMultipleCategoriesAsWritten | youtube-trending/data_manager.js:142-162 | As written, it succeeds exactly when every category has a live cache entry. A success stores one bucket per category, in order, with its display name and the cached answer without its header row. A failure is the undeclared-`response` error and changes nothing. The cache is never written. |
| DataManager.CategoryFetchAlwaysFailsAsWritten | youtube-trending/data_manager.js:69-79 | From a cache without category entries the as-written fetch always rejects. It still leaves no category entry, so every later attempt rejects too. |
| DataManager.UndeclaredResponseCounterexample | youtube-trending/data_manager.js:77 | From an empty cache, for a script that answers at once, the as-written fetch rejects while the corrected one returns the data. |
| DataManager.FindBucket | youtube-trending/view_manager.js:145 | The bucket found has the name searched for and is the first such bucket: every bucket before it has another name. Nothing is found exactly when no bucket has that name. |
| DataManager.GetAllTimeTopData | youtube-trending/data_manager.js:165-170 | At most `limit` rows with distinct urls, most viewed first, all taken from the de-duplicated data. The length is the smaller of `limit` and the number of distinct rows. A distinct row left out has no more views than the last row returned. |
| DataManager.TopDataEmpty | youtube-trending/data_manager.js:165-170 | With a positive limit the ranking is empty exactly when the data holds no row. |
| DataManager.RowsOn | youtube-trending/data_manager.js:174-175 | The rows of a date form a subsequence of the data. They contain exactly the rows whose date key is that date. |
| DataManager.RowsOnCounts | youtube-trending/data_manager.js:174-175 | Each row of the date occurs as often as in the data, and no row of another date occurs. |
| DataManager.GetDailyData | youtube-trending/data_manager.js:173-180 | At most `limit` rows, all from that day and from the data, in ascending rank order. The length is the smaller of `limit` and the day's row count, with no row repeated more often than in the data. A row of that day left out ranks no better than the last row returned. |
| DataManager.NamedBuckets | youtube-trending/data_manager.js:184 | Keeps every bucket except the overall one, in order; multiplicities are stated by `DataManager.NamedBucketsCounts`. |
| DataManager.NamedBucketsCounts | youtube-trending/data_manager.js:184 | Each bucket not named 全体 occurs as often as in the input, duplicates included, and the 全体 buckets are gone. |
| DataManager.PrepareCategoryStatistics | youtube-trending/data_manager.js:183-200 | One entry per bucket except the overall one, in order. Each entry carries the bucket's name, colour and row count. Its averages and maxima are those of the positive view and like counts, and each average does not exceed its maximum. A maximum is 0 exactly when the whole column is 0. |
| DataManager.StatisticsCoverEachCategory | youtube-trending/data_manager.js:183-200 | After a successful fetch the statistics have one entry per category after `All`, in list order. Each entry counts that category's rows without the header. |
| Sorting.SortIsStable | youtube-trending/data_manager.js:168 | Sorting keeps the relative order of rows that compare equal, as the stable `Array.prototype.sort` does. |
| Text.Trim | youtube-trending/table_manager.js:107 | Trimming gives the empty string exactly when the string consists of whitespace only. |
| Text.SplitJoin | youtube-trending/table_manager.js:214-217 | Splitting a joined list on a separator that none of the parts contains gives the parts back. |
| TableManager.Init | youtube-trending/table_manager.js:15-34 | The manager is initialised once the table elements are found, and an initialised manager stays so. Nothing else changes. |
| TableManager.CreateLinkCell | youtube-trending/table_manager.js:104-120 | A cell is a link exactly when the url is not blank, and the link points at the url. Either way the cell shows the text. |
| TableManager.RankText | youtube-trending/table_manager.js:97-101 | `content \|\| ''` makes the rank text empty exactly for rank 0. Any other rank is written as decimal digits that read back as the rank. |
| TableManager.RowCells | youtube-trending/table_manager.js:70-93 | A row has seven cells: date, rank, title, channel, genre, views and likes, from row fields 0, 1, 2, 3, 5, 7 and 8. The title is a link exactly when the url is not blank. |
| TableManager.Populate | youtube-trending/table_manager.js:67-93 | One table row per data row, in order. |
| TableManager.PopulateAsWritten | youtube-trending/table_manager.js:89 | As written, filling throws exactly when there is data. The body then holds one row with only its first five cells. |
| TableManager.PopulateAsWrittenLosesRows | youtube-trending/table_manager.js:89 | For any non-empty data, the as-written body differs from the intended one, and its only row is shorter than the headings. |
| TableManager.UpdateTable | youtube-trending/table_manager.js:37-52 | Before initialisation nothing changes. Afterwards the table has the heading row and the body of `rows`, and the title changes only when a title is given. |
| TableManager.UpdateTableAsWritten | youtube-trending/table_manager.js:37-52 | As written, the update throws exactly when the table is initialised and there are rows. It then leaves the heading row over one five-cell row and keeps the old title and information line. Otherwise it is the update `UpdateTable` makes. |
| TableManager.ShowLoading | youtube-trending/table_manager.js:129-142 | The body is empty under a loading notice that spans all seven columns. |
| TableManager.ShowError | youtube-trending/table_manager.js:145-155 | The body is empty under an error notice that spans all seven columns. |
| TableManager.UpdateTitle | youtube-trending/table_manager.js:158-163 | Only the title changes. |
| TableManager.UpdateViewInfo | youtube-trending/table_manager.js:166-171 | The information line is `表示中: ` followed by the text. Nothing else changes. |
| TableManager.CsvFields | youtube-trending/table_manager.js:210-213 | One field per cell, each the cell's text with its commas removed. |
| TableManager.ExportToCsv | youtube-trending/table_manager.js:197-218 | The export is empty exactly when there are no body rows. |
| TableManager.CsvReadsBack | youtube-trending/table_manager.js:197-218 | Splitting the export on newlines gives the heading line plus one line per body row. The heading line splits into the headings, and each body line splits into its row's fields. This needs non-empty rows and cell texts without newlines. |
| ViewManager.UpdateControlButtons | youtube-trending/view_manager.js:181-201 | The view's button is the only active one. Nothing else changes. |
| ViewManager.FillDateSelect | youtube-trending/view_manager.js:231-239 | The options are the placeholder followed by the dates, and the placeholder is selected. |
| ViewManager.UpdateDateSelector | youtube-trending/view_manager.js:225-240 | The selector is rebuilt from the available dates. Nothing else changes. |
| ViewManager.SetValue | youtube-trending/view_manager.js:122 | Assigning a value that an option carries selects it. Any other value leaves the selector reading empty. |
| ViewManager.InitView | youtube-trending/view_manager.js:26-35 | The first call marks the manager initialised and fills the selector with the placeholder and the available dates, the placeholder selected. Once initialised, a call changes nothing. |
| ViewManager.InitViewOnce | youtube-trending/view_manager.js:26-27 | A second `init` leaves the selector as the first one filled it, even after the dates have changed. |
| ViewManager.ShowAllTimeData | youtube-trending/view_manager.js:157-162 | The table shows the all-time query for fifty rows under its title and information line. View, buttons, data and chart are unchanged. |
| ViewManager.SwitchToAllTimeView | youtube-trending/view_manager.js:103-110 | The all-time view becomes current with its button alone active, the selector hidden and the main chart shown. The table shows the all-time ranking. |
| ViewManager.ShowAllTimeDataAsWritten | youtube-trending/view_manager.js:157-162 | As written, showing the ranking throws exactly when the data holds a row. The table is then left with the heading row over one five-cell row, under the old title and information line, and nothing else changes. With no data it is `ShowAllTimeData`. |
| ViewManager.SwitchToAllTimeViewAsWritten | youtube-trending/view_manager.js:103-110 | As written, the view, buttons, selector and chart switch to the all-time view before the table update throws. It throws exactly when the data holds a row, and otherwise matches `SwitchToAllTimeView`. |
| ViewManager.ShowDailyData | youtube-trending/view_manager.js:165-178 | An empty date changes nothing. A date without rows shows a not-found notice and keeps the title. Otherwise the table shows that day's ranking, titled with the date, and the information line counts its rows. |
| ViewManager.DailyTableShowsThatDay | youtube-trending/view_manager.js:165-178 | A rendered day shows only that day's rows, at most fifty. It is empty exactly when the data holds no row of that date. |
| ViewManager.SwitchToDailyView | youtube-trending/view_manager.js:113-125 | The daily view becomes current with the selector shown. When there are dates, the newest is selected and, if it has rows, rendered. With no dates, table and selector are unchanged. |
| ViewManager.NewestDateHasRows | youtube-trending/view_manager.js:119-124 | The newest available date always has rows, so opening the daily view never shows the not-found notice. |
| ViewManager.DateChanged | youtube-trending/view_manager.js:74-80 | A selector change renders the chosen date only in the daily view and only for a non-empty value. Otherwise the table is untouched. |
| ViewManager.LoadDateClicked | youtube-trending/view_manager.js:83-92 | The 表示 button renders the selected date in any view. With nothing selected, nothing changes. |
| ViewManager.BeginCategoryView | youtube-trending/view_manager.js:128-135 | The category view becomes current with its button alone active and the selector hidden. The table shows the category loading notice and title. |
| ViewManager.OverallRows | youtube-trending/view_manager.js:145 | The rows of the 全体 bucket, or none when there is no such bucket. |
| ViewManager.FinishCategoryView | youtube-trending/view_manager.js:137-153 | A failed fetch shows the category error and keeps the chart. A success shows the category chart and at most twenty overall rows. It sets the title and counts the buckets in the information line. |
| ViewManager.SwitchToCategoryView | youtube-trending/view_manager.js:128-154 | The view is the category view whatever the fetch does. The data is the fetch's state. A failure ends on the category error notice over an empty body. A success of the corrected fetch, rendered through the corrected `Populate`, ends under the overall title. |
| ViewManager.CategoryTableShowsOverall | youtube-trending/view_manager.js:144-148 | On success the table holds the first twenty rows of the `All` answer without its header row. The information line counts six categories. |
| ViewManager.DashboardClicked | youtube-trending/view_manager.js:66-71 | The dashboard button reveals the category button and then opens the category view with only its button active and the selector hidden. The data is the category fetch's state; a failure ends on the category error notice over an empty body, and a success (of the corrected fetch) ends under the overall title. |
| ViewManager.SwitchToCategoryViewAsWritten | youtube-trending/view_manager.js:128-154 | Over the as-written fetch, the view still becomes the category view and the data is the fetch's state. |
| ViewManager.CategoryViewAlwaysFailsAsWritten | youtube-trending/view_manager.js:150-153 | With no category entry cached, the as-written category view always ends on the error notice with an empty body. |
| ViewManager.RefreshCurrentViewAsWritten | youtube-trending/view_manager.js:243-275 | As written, a successful daily refresh leaves the table as it was, and the selector reads empty. A successful all-time refresh with any row ends on the refresh error, thrown by the table update. The category refresh ends on the category error. A failed fetch shows the refresh error. |
| ViewManager.ShowRefreshedAsWritten | youtube-trending/view_manager.js:247-261 | The as-written refresh once the main fetch has settled, outside the category view. The all-time view ends on the refresh error when there is a row, and the daily view keeps its table. |
| ViewManager.RefreshCurrentView | youtube-trending/view_manager.js:243-275 | The view never changes and coherence is kept. Outside the category view the cache ends empty or holding only the main entry, and a failed fetch shows the refresh error over unchanged rows. An all-time refresh shows the refreshed ranking. A daily refresh keeps the selected date selected and re-renders it from the refreshed data. |
| ViewManager.ShowRefreshed | youtube-trending/view_manager.js:247-261 | The corrected refresh once the main fetch has settled: the refresh error, or the refreshed ranking, or the previously selected date selected again and re-rendered. |
| ViewManager.RefetchKeepsOnlyMain | youtube-trending/view_manager.js:246-254 | After `clearCache` and the main fetch, the cache holds at most the main entry. A failed refetch keeps the rows. |
| ViewManager.DailyRefreshCounterexample | youtube-trending/view_manager.js:253-261 | Take a daily view on a date that still has rows after a refresh. The as-written refresh keeps the old table while the corrected one shows the refreshed rows, so the two differ. |
| ViewManager.LoadInitialData | youtube-trending/view_manager.js:278-288 | A failed first fetch shows the initial-load error and keeps the data. A success fills the selector and opens the all-time view on the fetched data. |
| ViewManager.LoadInitialDataAsWritten | youtube-trending/view_manager.js:278-288 | As written, a successful first load with any data row ends on the initial-load error over an empty body. The view has already switched to the all-time view, with the selector filled and the data stored. A failed fetch or empty data end as `LoadInitialData` does. |
| ViewManager.InitialLoadCounterexample | youtube-trending/table_manager.js:89 | Take a first load whose spreadsheet holds a data row. The as-written load ends on the initial-load error with an empty table, while the corrected one shows a non-empty ranking. |
| Legacy.LegacyRowCells | youtube-trending/youtube_trending_bk.js:533-562 | The earlier row writes the rank as it is and always links the title. Its other cells are those of the modular table. |
| Legacy.LegacyCellsAgree | youtube-trending/youtube_trending_bk.js:533-562 | The two versions write the same row exactly when the rank is not 0 and the url is not blank. |
| Legacy.LegacyPopulate | youtube-trending/youtube_trending_bk.js:532-562 | One table row per data row, in order. |
| Legacy.UpdateTable | youtube-trending/youtube_trending_bk.js:516-563 | The table gets the heading row and a fresh body, with no initialisation check. Title and information are untouched. |
| Legacy.ShowTableLoading | youtube-trending/youtube_trending_bk.js:587-603 | The body is empty under the default loading notice across seven columns. |
| Legacy.ShowTableError | youtube-trending/youtube_trending_bk.js:606-619 | The body is empty under the message across seven columns. |
| Legacy.ShowInfo | youtube-trending/youtube_trending_bk.js:566-579 | Sets the title and the `表示中: ` information line. Nothing else changes. |
| Legacy.ShowAllTimeData | youtube-trending/youtube_trending_bk.js:477-487 | The table shows at most fifty rows with distinct urls, most viewed first, all from the de-duplicated data. This is the query the modular version runs. |
| Legacy.ShowDailyData | youtube-trending/youtube_trending_bk.js:496-513 | An empty date changes nothing. A date without rows shows the not-found notice. Otherwise the table renders that day's query (`DataManager.GetDailyData`, at most fifty rows), with the date's title and its row count in the view line. Data, view, date list and chart are untouched. |
| Legacy.AllTimeClicked | youtube-trending/youtube_trending_bk.js:180-183 | The all-time view with its button alone active, the selector hidden, the sales chart and the all-time ranking. |
| Legacy.DailyClicked | youtube-trending/youtube_trending_bk.js:185-188 | The daily view with the selector shown and the sales chart. When there are dates, the newest is selected and rendered. |
| Legacy.DateChanged | youtube-trending/youtube_trending_bk.js:198-202 | A selector change renders the chosen date the earlier way, only in the daily view and only for a non-empty value. Otherwise the table is untouched. |
| Legacy.LoadDateClicked | youtube-trending/youtube_trending_bk.js:205-212 | The 表示 button renders the selected date the earlier way in any view: the not-found notice or that day's rows. With nothing selected, nothing changes. |
| Legacy.FetchYouTubeData | youtube-trending/youtube_trending_bk.js:436-458 | Whatever arrives is shown, without any status check. The data loses its header row, the selector is rebuilt, and the all-time ranking is shown whatever the view. An unreachable endpoint shows the error notice and keeps the data. |
| Legacy.FailedStatusShownAsData | youtube-trending/youtube_trending_bk.js:439-443 | The earlier version shows the body of a failed response as data, where the modular fetch rejects it with the status. |
| Legacy.FetchByCategory | youtube-trending/youtube_trending_bk.js:252-316 | Without any cache, the first event decides: data for the callback, a load failure for `onerror`, a timeout otherwise. |
| Legacy.ColumnMean | youtube-trending/youtube_trending_bk.js:128-136 | The average over every row of the bucket, zeros included. An empty bucket averages to 0. |
| Legacy.NamedBuckets | youtube-trending/youtube_trending_bk.js:125 | Keeps every bucket except the overall one, in order; multiplicities are stated by `Legacy.NamedBucketsCounts`. |
| Legacy.NamedBucketsCounts | youtube-trending/youtube_trending_bk.js:125 | Each bucket not named 全体 occurs as often as in the input, duplicates included, and the 全体 buckets are gone. |
| Legacy.PrepareCategoryChartData | youtube-trending/youtube_trending_bk.js:124-158 | One label and two averages per bucket except the overall one, in order. An empty bucket gets zero bars. |
| Legacy.ChartAverageAtMostStatistics | youtube-trending/youtube_trending_bk.js:128-136 | The earlier chart's average never exceeds the modular statistics' average, which leaves zeros out. The two agree when every count is positive. |
| Legacy.LegacyBuckets | youtube-trending/youtube_trending_bk.js:22-26 | Six buckets in category order, each with its display name, its answer without the header and its colour. |
| Legacy.ShowCategoryAnalysis | youtube-trending/youtube_trending_bk.js:11-41 | Any rejection leaves the buckets unchanged, the loading title and the error notice. Success stores the buckets, draws their chart and shows twenty overall rows under the overall title with a count of six categories. |
| Legacy.SwitchToCategoryView | youtube-trending/youtube_trending_bk.js:167-175 | The category view with its button alone active and the selector hidden. It ends on the error notice or on the overall rows. |
| Legacy.DashboardClicked | youtube-trending/youtube_trending_bk.js:191-195 | The dashboard button reveals the category button and runs the cacheless category analysis: the error notice, or the overall rows. |
| Legacy.Refresh | youtube-trending/youtube_trending_bk.js:215-221 | The category view reruns the analysis. Any other view refetches and shows the all-time ranking, even in the daily view. The view never changes. |

## Left out

- The network, timers, the DOM and `console` are not modelled as such. Responses, script events and clock readings are inputs, and the page is a value.
- Concurrency: the six category requests run at once (`Promise.all`). The model threads the cache through them in list order. Each request reads and writes only its own key, so the order does not matter.
- DataManager.FetchMultipleCategories: all six entries are stamped with one settlement time, `fetchedAt`. The source stamps each entry with `Date.now()` when its own script settles, so its entries can expire at slightly different times.
- Interleavings of user actions with pending fetches, for example a view switch while the category fetch is in flight, are not modelled. Each operation runs to completion.
- The number formats are not modelled: `formatNumber` (`toLocaleString`) and the short format the modular table intends. View and like cells are opaque `Count` cells. `TableManager.ExportToCsv` takes the short formatter as a parameter.
- Malformed answers are not modelled. `DataManager.MainResponse` and the script payloads of `Jsonp.Event` are always sequences of eleven-cell rows, and the source never checks this. In `data_manager.js`, a non-array answer such as an `{error: ...}` object is cached (lines 39-42) before `processMainData` calls `data.slice(1)` (line 55), which throws. Every main fetch in the next five minutes then hits that entry (line 26) and throws again. In `youtube_trending_bk.js` the same `slice` throws (lines 24 and 443), and the catch shows the error notice, where the model would show the body as data.
- NaN and non-numeric cells are not modelled. Rank, views and likes are naturals, so `Number(...)`, `parseFloat(...) || 0` and `parseInt(...) || 0` are the identity. `Utils.ValidNumbers` represents NaN and `null` entries as `None`.
- Strings are sequences of code points, not UTF-16 units.
- Element presence is not modelled. The view manager's operations require an initialised table (`ViewManager.Ready`): `showLoading` and `showError` dereference `thead` otherwise, and `main.js` initialises the table first. The other optional elements (buttons, selector, title, information line) are assumed present.
- `TableManager.ExportToCsv`: the source checks `tbody` rather than the initialised flag. The two differ only when `thead` is missing but `tbody` is present, a page shape the model does not represent.
- The chart manager and the earlier script's chart drawing (`initChart`, `showCategoryChart`, the `.replace` of colour alpha) are left out. The chart is represented by the data it is drawn from.
- `Utils.debounce`, `Utils.generateUniqueId` and `Utils.formatNumber` are left out: timers, randomness and locale formatting.
- `Utils.formatDateForDisplay` and the earlier `formatDateForDisplay` are the identity on option text. Only option values are modelled.
- The earlier script's `getDateOnly` and `getCategoryColor` are identical to the `Utils` ones, and the model reuses `Utils.DateOnly` and `Utils.CategoryColor`.
- Utils.CategoryColor: `colors[category]` is a lookup in an object literal, so a name inherited from `Object.prototype` (`constructor`, `toString`, `__proto__`, ...) yields that property instead of grey. The model gives grey to every unlisted name. Every caller passes one of the six listed categories.
- The earlier script's `updateDateSelector` is identical to `ViewManager.FillDateSelect`, which the model reuses.
- TableManager.UpdateTable: renders through the corrected `Populate`. As written, any non-empty update throws (see Findings); `TableManager.UpdateTableAsWritten` models that.
- ViewManager.ShowAllTimeData: renders through the corrected `Populate`. As written it throws once there is a row; `ViewManager.ShowAllTimeDataAsWritten` models that.
- ViewManager.SwitchToAllTimeView: renders through the corrected `Populate`; `ViewManager.SwitchToAllTimeViewAsWritten` models the throw.
- ViewManager.ShowDailyData: a date with rows renders through the corrected `Populate`. As written the update throws, leaving the heading row over one five-cell row and the old title and information line. No as-written member models the daily render.
- ViewManager.DailyTableShowsThatDay: states the corrected render of `ViewManager.ShowDailyData`.
- ViewManager.SwitchToDailyView: the newest date renders through the corrected `Populate`. As written the daily button's handler throws, uncaught, after the selector is set.
- ViewManager.DateChanged: renders through the corrected `Populate`. As written the handler throws, uncaught.
- ViewManager.LoadDateClicked: renders through the corrected `Populate`. As written the handler throws, uncaught.
- ViewManager.FinishCategoryView: a successful fetch renders through the corrected `Populate`. As written the update would throw and the catch would show the category error. With the as-written fetch the success path is never reached (`DataManager.CategoryFetchAlwaysFailsAsWritten`).
- ViewManager.SwitchToCategoryView: runs the corrected category fetch and renders through the corrected `Populate`. As written the fetch rejects on a cache miss (`ViewManager.SwitchToCategoryViewAsWritten`), and a success with any overall row would throw in the table update, so the catch would show the category error notice under the loading title.
- ViewManager.DashboardClicked: runs `ViewManager.SwitchToCategoryView`, so it inherits the same corrected fetch and corrected `Populate`.
- ViewManager.SwitchToCategoryViewAsWritten: as-written in its fetch only. Its success path, never reached, renders through the corrected `Populate`.
- ViewManager.CategoryTableShowsOverall: states the corrected render of the category table.
- ViewManager.ShowRefreshed: the corrected refresh outside the category view, rendering the all-time ranking and the re-selected date through the corrected `Populate`, and re-selecting the previous date although the `innerHTML` reset has already cleared it. `ViewManager.ShowRefreshedAsWritten` models the refresh as written.
- ViewManager.RefreshCurrentView: the corrected refresh, rendering through the corrected `Populate`.
- ViewManager.LoadInitialData: the corrected first load, rendering through the corrected `Populate`. `ViewManager.LoadInitialDataAsWritten` models the load as written.
- `alert` on the 表示 button with no date selected is not modelled; the model shows nothing.
- The getters, `getRowCount`, `getRow`, `show`, `hide` and `showStatistics` of the table manager are not modelled. They only read state or toggle visibility, and `showStatistics` calls the undefined short format as well.
- Both versions' sorts are modelled as a stable insertion sort. Only the resulting order is modelled, not the engine's algorithm.
- The date list is sorted with `new Date(b) - new Date(a)`. The model compares date keys as strings, which agrees with the calendar order for `YYYY/MM/DD` keys. Timestamps without such a prefix are ordered by string, not by `Date` parsing.

## Findings

| source | as written | input that shows it | evidently intended | confidence | as-written member | corrected member |
|---|---|---|---|---|---|---|
| youtube-trending/data_manager.js:77 | On a cache miss `fetchYouTubeDataByCategory` reads `response.ok`, but no `response` is declared in that function. It throws a ReferenceError before the script request is made, so no category is ever fetched or cached. | A fresh dashboard (empty cache) opening the category view, with a script that would answer at once. | The status check belongs to `fetch` and does not apply to a script request. The request should be issued and its answer cached. | not executed | DataManager.FetchCategoryAsWritten, DataManager.CategoryFetchAlwaysFailsAsWritten, ViewManager.CategoryViewAlwaysFailsAsWritten | DataManager.FetchCategory, DataManager.FetchMultipleCategories |
| youtube-trending/view_manager.js:253-261 | The daily refresh calls `updateDateSelector`, whose `innerHTML` reset (line 231) selects the placeholder, and only then reads the selected value. The value is always empty, so the refreshed day is never re-rendered. | The daily view showing a date that still has rows after the refresh. | The selected date should be read before the selector is rebuilt, then selected and rendered again. | not executed | ViewManager.RefreshCurrentViewAsWritten, ViewManager.DailyRefreshCounterexample | ViewManager.RefreshCurrentView |
| youtube-trending/table_manager.js:89 | `populateData` calls `Utils.formatNumberShort`, which `utils.js` does not define. Any non-empty table update throws a TypeError after five cells of the first row. Where a catch follows, the page ends on that catch's error notice: the first load and the all-time refresh show their error even though the fetch succeeded. The button handlers have no catch and leave the heading row over one incomplete row. | A first load whose spreadsheet holds at least one data row: the page shows the initial-load error instead of the all-time ranking. | View and like counts shown through a short number format, and every table rendered in full. | not executed | TableManager.PopulateAsWritten, TableManager.UpdateTableAsWritten, ViewManager.LoadInitialDataAsWritten, ViewManager.InitialLoadCounterexample | TableManager.Populate, ViewManager.LoadInitialData |

=== FILE: cache.dfy ===
/** The data manager's response cache: a map from a key to the data and the
    time it was stored. The clock is an explicit millisecond reading. */
module Cache {
  import opened Wrappers
  import opened Rows

  datatype Entry = Entry(data: seq<Row>, timestamp: int)

  type Store = map<string, Entry>

  /** Main data stays valid for five minutes. */
  const MainTtl: int := 5 * 60 * 1000
  /** Category data stays valid for ten minutes. */
  const CategoryTtl: int := 10 * 60 * 1000

  const MainKey: string := "main_youtube_data"
  const CategoryPrefix: string := "category_"

  function CategoryKey(category: string): string
  {
    CategoryPrefix + category
  }

  /** The cached data for `key` if it was stored less than `ttl` ms before `now`. */
  function Lookup(store: Store, key: string, now: int, ttl: int): (r: Option<seq<Row>>)
    ensures r.Some? <==> key in store && now - store[key].timestamp < ttl
    ensures r.Some? ==> r.value == store[key].data
  {
    if key in store && now - store[key].timestamp < ttl then Some(store[key].data) else None
  }

  /** `cache.set(key, {data, timestamp: now})`. */
  function Put(store: Store, key: string, data: seq<Row>, now: int): (r: Store)
    ensures r.Keys == store.Keys + {key}
    ensures r[key] == Entry(data, now)
    ensures forall k :: k in store && k != key ==> r[k] == store[k]
  {
    store[key := Entry(data, now)]
  }

  /** `cache.clear()`. */
  const Cleared: Store := map[]

  /** A stored entry is served until its time-to-live has elapsed, and
      storing one key leaves every other key's lookup as it was. */
  lemma PutThenLookup(store: Store, key: string, data: seq<Row>, storedAt: int, other: string, now: int, ttl: int)
    ensures Lookup(Put(store, key, data, storedAt), key, now, ttl) ==
      (if now - storedAt < ttl then Some(data) else None)
    ensures other != key ==>
      Lookup(Put(store, key, data, storedAt), other, now, ttl) == Lookup(store, other, now, ttl)
  {
  }

  /** After `clearCache` every lookup misses. */
  lemma ClearedMisses(key: string, now: int, ttl: int)
    ensures Lookup(Cleared, key, now, ttl) == None
  {
  }

  /** The main entry and the category entries never share a key, and two
      categories share a key only when they are the same category. */
  lemma KeysSeparate(a: string, b: string)
    ensures MainKey != CategoryKey(a)
    ensures CategoryKey(a) == CategoryKey(b) ==> a == b
  {
    assert MainKey[0] == 'm';
    assert CategoryKey(a)[0] == 'c';
    assert CategoryKey(a)[|CategoryPrefix|..] == a;
    assert CategoryKey(b)[|CategoryPrefix|..] == b;
  }
}

=== FILE: data_manager.dfy ===
/** The dashboard's `DataManager`: the current dataset, the category
    buckets, the available date list and the response cache, with the
    queries the views render. Network responses, script events and clock
    readings are inputs. */
module DataManager {
  import opened Wrappers
  import opened Rows
  import opened Seqs
  import Sorting
  import Text
  import Utils
  import Cache
  import opened Jsonp

  /** One category's slice of the data. */
  datatype Bucket = Bucket(name: string, data: seq<Row>, color: string, rawCategory: string)

  /** One bar of the category chart. */
  datatype CategoryStats = CategoryStats(
    name: string,
    color: string,
    avgViews: real,
    avgLikes: real,
    totalVideos: nat,
    maxViews: int,
    maxLikes: int)

  datatype DataState = DataState(
    allData: seq<Row>,
    categoryData: seq<Bucket>,
    availableDates: seq<string>,
    cache: Cache.Store)

  const Initial: DataState := DataState([], [], [], Cache.Cleared)

  /** The categories requested, in order. */
  const Categories: seq<string> := ["All", "音楽", "エンターテイメント", "ゲーム", "ハウツーとスタイル", "ペットと動物"]

  /** Only the first listed category is the overall one. */
  lemma OnlyFirstIsAll(i: int)
    requires 1 <= i < |Categories|
    ensures Categories[i] != "All" && Categories[i] != OverallName
  {
    assert Categories[i] in Categories[1..];
    assert Categories[1..] == ["音楽", "エンターテイメント", "ゲーム", "ハウツーとスタイル", "ペットと動物"];
  }

  /** The display name of the `All` bucket. */
  const OverallName: string := "全体"

  // ---------------------------------------------------------------------------
  // Main data

  function DateKeyOf(r: Row): string
  {
    Utils.DateOnly(r.timestamp)
  }

  function DateKeys(rows: seq<Row>): (r: seq<string>)
    ensures |r| == |rows|
    ensures forall i :: 0 <= i < |rows| ==> r[i] == DateKeyOf(rows[i])
  {
    if |rows| == 0 then [] else [DateKeyOf(rows[0])] + DateKeys(rows[1..])
  }

  /** `new Date(b) - new Date(a)` as a comparator: for `YYYY/MM/DD` keys the
      string order is the calendar order. */
  predicate NewestFirst(a: string, b: string)
  {
    Text.StrLe(b, a)
  }

  lemma NewestFirstIsTotal()
    ensures Sorting.TotalPreorder(NewestFirst)
  {
    forall a, b ensures NewestFirst(a, b) || NewestFirst(b, a) {
      Text.StrLeTotal(a, b);
    }
    forall a, b, c | NewestFirst(a, b) && NewestFirst(b, c) ensures NewestFirst(a, c) {
      Text.StrLeTransitive(c, b, a);
    }
  }

  function Identity(s: string): string
  {
    s
  }

  lemma DistinctKeepsMembers(keys: seq<string>)
    ensures forall d :: d in DistinctBy(keys, Identity, {}) <==> d in keys
  {
    var distinct := DistinctBy(keys, Identity, {});
    forall d ensures d in distinct <==> d in keys {
      if d in keys {
        var i :| 0 <= i < |keys| && keys[i] == d;
        assert Identity(keys[i]) in Keys(keys, Identity);
        assert d in Keys(distinct, Identity);
        var j :| 0 <= j < |distinct| && Identity(distinct[j]) == d;
        assert distinct[j] == d;
      }
      if d in distinct {
        var i :| 0 <= i < |distinct| && distinct[i] == d;
        assert Identity(distinct[i]) in Keys(distinct, Identity);
      }
    }
  }

  lemma DateKeysMembers(rows: seq<Row>)
    ensures forall d :: d in DateKeys(rows) <==> exists i :: 0 <= i < |rows| && DateKeyOf(rows[i]) == d
  {
    var keys := DateKeys(rows);
    forall d | d in keys ensures exists i :: 0 <= i < |rows| && DateKeyOf(rows[i]) == d {
      var i :| 0 <= i < |keys| && keys[i] == d;
      assert DateKeyOf(rows[i]) == d;
    }
  }

  /** `[...new Set(rows.map(row => getDateOnly(row[0])))]` sorted newest first. */
  function AvailableDates(rows: seq<Row>): (r: seq<string>)
    ensures forall i, j :: 0 <= i < j < |r| ==> r[i] != r[j]
    ensures forall d :: d in r <==> exists i :: 0 <= i < |rows| && DateKeyOf(rows[i]) == d
    ensures forall i, j :: 0 <= i < j < |r| ==> Text.StrLe(r[j], r[i])
  {
    NewestFirstIsTotal();
    var keys := DateKeys(rows);
    var distinct := DistinctBy(keys, Identity, {});
    Sorting.SortKeepsKeysDistinct(distinct, NewestFirst, Identity);
    DistinctKeepsMembers(keys);
    DateKeysMembers(rows);
    var r := Sorting.Sort(distinct, NewestFirst);
    assert forall i, j :: 0 <= i < j < |r| ==> Identity(r[i]) != Identity(r[j]);
    r
  }

  /** `processMainData`: drops the header row and rebuilds the date list. */
  function ProcessMainData(st: DataState, data: seq<Row>): (r: DataState)
    ensures r.allData == DropFirst(data)
    ensures r.availableDates == AvailableDates(DropFirst(data))
    ensures r.categoryData == st.categoryData && r.cache == st.cache
  {
    var rows := DropFirst(data);
    st.(allData := rows, availableDates := AvailableDates(rows))
  }

  /** What the main endpoint answers with. */
  datatype MainResponse =
    | Response(ok: bool, status: int, body: seq<Row>)
    | Unreachable    // `fetch` or `response.json()` rejected

  datatype MainFetch = MainFetch(state: DataState, result: Result<seq<Row>, FetchError>, requested: bool)

  /** `fetchYouTubeData` at clock reading `now`; on a cache miss the request
      is answered by `response` and stored with the reading `fetchedAt`. */
  function FetchMain(st: DataState, now: int, response: MainResponse, fetchedAt: int): (r: MainFetch)
    ensures r.requested <==>
      !(Cache.MainKey in st.cache && now - st.cache[Cache.MainKey].timestamp < Cache.MainTtl)
    ensures !r.requested ==>
      r.result == Ok(st.cache[Cache.MainKey].data) && r.state.cache == st.cache
    ensures r.requested && r.result.Ok? ==>
      && response.Response? && response.ok && response.body == r.result.value
      && r.state.cache == st.cache[Cache.MainKey := Cache.Entry(r.result.value, fetchedAt)]
    ensures r.requested && response.Response? && !response.ok ==> r.result == Err(HttpError(response.status))
    ensures r.requested && response.Unreachable? ==> r.result == Err(TransportFailure)
    ensures r.result.Ok? ==> r.state == ProcessMainData(r.state, r.result.value)
    ensures r.result.Ok? ==> r.state.categoryData == st.categoryData
    ensures r.result.Err? ==> r.state == st
  {
    match Cache.Lookup(st.cache, Cache.MainKey, now, Cache.MainTtl)
    case Some(data) => MainFetch(ProcessMainData(st, data), Ok(data), false)
    case None =>
      match response
      case Unreachable => MainFetch(st, Err(TransportFailure), true)
      case Response(ok, status, body) =>
        if !ok then MainFetch(st, Err(HttpError(status)), true)
        else
          var cached := st.(cache := Cache.Put(st.cache, Cache.MainKey, body, fetchedAt));
          MainFetch(ProcessMainData(cached, body), Ok(body), true)
  }

  /** Two fetches within the time-to-live make one request and return the
      same data; once it has elapsed the next fetch requests again. */
  lemma RefetchWithinTtlIsCached(st: DataState, t1: int, resp1: MainResponse, stored: int, t2: int, resp2: MainResponse, later: int)
    requires FetchMain(st, t1, resp1, stored).result.Ok?
    ensures var first := FetchMain(st, t1, resp1, stored);
            var second := FetchMain(first.state, t2, resp2, later);
            && (first.requested && t2 - stored < Cache.MainTtl ==>
                  !second.requested && second.result == first.result)
            && (first.requested && t2 - stored >= Cache.MainTtl ==> second.requested)
  {
  }

  /** `clearCache`. */
  function ClearCache(st: DataState): (r: DataState)
    ensures forall key, now, ttl :: Cache.Lookup(r.cache, key, now, ttl) == None
    ensures r.allData == st.allData && r.categoryData == st.categoryData
    ensures r.availableDates == st.availableDates
  {
    st.(cache := Cache.Cleared)
  }

  // ---------------------------------------------------------------------------
  // Category data

  datatype CategoryFetch = CategoryFetch(cache: Cache.Store, result: Result<seq<Row>, FetchError>)

  predicate CategoryCached(cache: Cache.Store, category: string, now: int)
  {
    Cache.Lookup(cache, Cache.CategoryKey(category), now, Cache.CategoryTtl).Some?
  }

  /** `fetchYouTubeDataByCategory` as intended: a live cache entry answers at
      once; otherwise the script request settles with the first of `events`
      (or the timeout) and a success is stored at `fetchedAt`. */
  function FetchCategory(cache: Cache.Store, category: string, now: int, events: seq<Event>, fetchedAt: int): (r: CategoryFetch)
    ensures CategoryCached(cache, category, now) ==>
      r == CategoryFetch(cache, Ok(cache[Cache.CategoryKey(category)].data))
    ensures !CategoryCached(cache, category, now) ==> r.result == Settlement(events)
    ensures !CategoryCached(cache, category, now) && r.result.Ok? ==>
      r.cache == cache[Cache.CategoryKey(category) := Cache.Entry(r.result.value, fetchedAt)]
    ensures r.result.Err? ==> r.cache == cache
  {
    var key := Cache.CategoryKey(category);
    match Cache.Lookup(cache, key, now, Cache.CategoryTtl)
    case Some(data) => CategoryFetch(cache, Ok(data))
    case None =>
      match Settlement(events)
      case Ok(data) => CategoryFetch(Cache.Put(cache, key, data, fetchedAt), Ok(data))
      case Err(e) => CategoryFetch(cache, Err(e))
  }

  /** `fetchYouTubeDataByCategory` as written: on a cache miss it reads
      `response.ok` although no `response` is declared in that function, so
      the call rejects with a ReferenceError before any request is made. */
  function FetchCategoryAsWritten(cache: Cache.Store, category: string, now: int): (r: CategoryFetch)
    ensures r.cache == cache
    ensures r.result.Ok? <==> CategoryCached(cache, category, now)
    ensures !CategoryCached(cache, category, now) ==> r.result == Err(UndeclaredResponse)
  {
    match Cache.Lookup(cache, Cache.CategoryKey(category), now, Cache.CategoryTtl)
    case Some(data) => CategoryFetch(cache, Ok(data))
    case None => CategoryFetch(cache, Err(UndeclaredResponse))
  }

  /** The name a bucket is shown under. */
  function DisplayName(category: string): string
  {
    if category == "All" then OverallName else category
  }

  /** The bucket list built from one result per category. */
  function ShapeBuckets(names: seq<string>, results: seq<seq<Row>>): (r: seq<Bucket>)
    requires |results| == |names|
    ensures |r| == |names|
    ensures forall i :: 0 <= i < |r| ==>
      && r[i].rawCategory == names[i]
      && r[i].name == DisplayName(names[i])
      && r[i].data == DropFirst(results[i])
      && r[i].color == Utils.CategoryColor(names[i])
  {
    if |names| == 0 then []
    else
      [Bucket(DisplayName(names[0]), DropFirst(results[0]), Utils.CategoryColor(names[0]), names[0])]
        + ShapeBuckets(names[1..], results[1..])
  }

  /** Every fetched category's result, in list order, with the cache after
      all the requests settle. The six requests run concurrently, but each
      reads and writes only its own key, so threading the cache through them
      in list order gives the same cache. */
  function FetchEach(cache: Cache.Store, names: seq<string>, now: int, traces: seq<seq<Event>>, fetchedAt: int)
    : (r: (Cache.Store, seq<Result<seq<Row>, FetchError>>))
    requires |traces| == |names|
    ensures |r.1| == |names|
    decreases |names|
  {
    if |names| == 0 then (cache, [])
    else
      var first := FetchCategory(cache, names[0], now, traces[0], fetchedAt);
      var rest := FetchEach(first.cache, names[1..], now, traces[1..], fetchedAt);
      (rest.0, [first.result] + rest.1)
  }

  predicate EverySucceeds(results: seq<Result<seq<Row>, FetchError>>)
  {
    forall i :: 0 <= i < |results| ==> results[i].Ok?
  }

  predicate SomeFailsWith(results: seq<Result<seq<Row>, FetchError>>, e: FetchError)
  {
    exists i :: 0 <= i < |results| && results[i] == Err(e)
  }

  /** The values of a list of results when every one succeeded. */
  function AllOk(results: seq<Result<seq<Row>, FetchError>>): (r: Result<seq<seq<Row>>, FetchError>)
    ensures r.Ok? <==> EverySucceeds(results)
    ensures r.Ok? ==> |r.value| == |results| && forall i :: 0 <= i < |results| ==> r.value[i] == results[i].value
    ensures r.Err? ==> SomeFailsWith(results, r.error)
  {
    if |results| == 0 then Ok([])
    else
      match results[0]
      case Err(e) => Err(e)
      case Ok(v) =>
        match AllOk(results[1..])
        case Err(e) =>
          var i :| 0 <= i < |results[1..]| && results[1..][i] == Err(e);
          assert results[i + 1] == Err(e);
          Err(e)
        case Ok(vs) => Ok([v] + vs)
  }

  datatype BucketsFetch = BucketsFetch(state: DataState, result: Result<seq<Bucket>, FetchError>)

  /** Each category's answer, in list order. */
  function Answers(st: DataState, now: int, traces: seq<seq<Event>>, fetchedAt: int): (r: seq<Result<seq<Row>, FetchError>>)
    requires |traces| == |Categories|
    ensures |r| == |Categories|
  {
    FetchEach(st.cache, Categories, now, traces, fetchedAt).1
  }

  /** `fetchMultipleCategoriesData`: all six categories or nothing. A
      failure leaves the bucket list as it was, though the categories that
      did arrive are still cached. */
  function FetchMultipleCategories(st: DataState, now: int, traces: seq<seq<Event>>, fetchedAt: int): (r: BucketsFetch)
    requires |traces| == |Categories|
    ensures r.result.Ok? ==> EverySucceeds(Answers(st, now, traces, fetchedAt))
    ensures r.result.Err? ==> SomeFailsWith(Answers(st, now, traces, fetchedAt), r.result.error)
    ensures r.result.Ok? ==>
      var answers := Answers(st, now, traces, fetchedAt);
      && r.state.categoryData == r.result.value
      && |r.result.value| == |Categories|
      && forall i :: 0 <= i < |Categories| ==>
           && r.result.value[i].rawCategory == Categories[i]
           && r.result.value[i].name == DisplayName(Categories[i])
           && r.result.value[i].data == DropFirst(answers[i].value)
    ensures r.result.Err? ==> r.state.categoryData == st.categoryData
    ensures r.state.allData == st.allData && r.state.availableDates == st.availableDates
    ensures r.state.cache == FetchEach(st.cache, Categories, now, traces, fetchedAt).0
  {
    var fetched := FetchEach(st.cache, Categories, now, traces, fetchedAt);
    var answers := Answers(st, now, traces, fetchedAt);
    assert answers == fetched.1;
    var st' := st.(cache := fetched.0);
    var all := AllOk(answers);
    if all.Err? then
      BucketsFetch(st', Err(all.error))
    else
      var buckets := ShapeBuckets(Categories, all.value);
      assert forall i :: 0 <= i < |Categories| ==> all.value[i] == answers[i].value;
      BucketsFetch(st'.(categoryData := buckets), Ok(buckets))
  }

  /** Every category has a live entry in `cache`. */
  predicate AllCategoriesCached(cache: Cache.Store, now: int)
  {
    forall i :: 0 <= i < |Categories| ==> CategoryCached(cache, Categories[i], now)
  }

  /** `fetchMultipleCategoriesData` over the as-written category fetch: it
      succeeds exactly when every category is served from the cache, and
      then holds the cached answers; otherwise it rejects with the
      undeclared-`response` error and changes nothing. */
  function FetchMultipleCategoriesAsWritten(st: DataState, now: int): (r: BucketsFetch)
    ensures r.state.cache == st.cache
    ensures r.result.Ok? <==> AllCategoriesCached(st.cache, now)
    ensures r.result.Ok? ==>
      && r.state == st.(categoryData := r.result.value)
      && |r.result.value| == |Categories|
      && forall i :: 0 <= i < |Categories| ==>
           && r.result.value[i].rawCategory == Categories[i]
           && r.result.value[i].name == DisplayName(Categories[i])
           && r.result.value[i].data == DropFirst(st.cache[Cache.CategoryKey(Categories[i])].data)
    ensures r.result.Err? ==> r.state == st && r.result.error == UndeclaredResponse
  {
    var results := seq(|Categories|, i requires 0 <= i < |Categories| =>
      FetchCategoryAsWritten(st.cache, Categories[i], now).result);
    match AllOk(results)
    case Err(e) =>
      assert !EverySucceeds(results);
      BucketsFetch(st, Err(e))
    case Ok(values) =>
      forall i | 0 <= i < |Categories|
        ensures Cache.CategoryKey(Categories[i]) in st.cache
        ensures values[i] == st.cache[Cache.CategoryKey(Categories[i])].data
      {
        assert results[i].Ok?;
      }
      var buckets := ShapeBuckets(Categories, values);
      BucketsFetch(st.(categoryData := buckets), Ok(buckets))
  }

  /** No live category entry is ever stored by the as-written fetch, so from
      a cache without one (the start, or after `clearCache`) the category
      fetch always rejects and the cache still holds none afterwards. */
  lemma CategoryFetchAlwaysFailsAsWritten(st: DataState, now: int, later: int)
    requires forall c :: c in Categories ==> Cache.CategoryKey(c) !in st.cache
    ensures FetchMultipleCategoriesAsWritten(st, now).result.Err?
    ensures forall c :: c in Categories ==> Cache.CategoryKey(c) !in FetchMultipleCategoriesAsWritten(st, later).state.cache
  {
  }

  /** The input that exposes it: a fresh dashboard whose script answers at
      once gets a rejection from the as-written fetch and the data from the
      intended one. */
  lemma UndeclaredResponseCounterexample(rows: seq<Row>)
    ensures FetchCategoryAsWritten(Cache.Cleared, "All", 0).result == Err(UndeclaredResponse)
    ensures FetchCategory(Cache.Cleared, "All", 0, [Callback(rows)], 0).result == Ok(rows)
  {
  }

  /** `categoryData.find(cat => cat.name === name)`. */
  function FindBucket(buckets: seq<Bucket>, name: string): (r: Option<Bucket>)
    ensures r.Some? ==> r.value in buckets && r.value.name == name
    ensures r.None? <==> forall i :: 0 <= i < |buckets| ==> buckets[i].name != name
    ensures r.Some? ==> exists i :: 0 <= i < |buckets| && buckets[i] == r.value
                                    && forall j :: 0 <= j < i ==> buckets[j].name != name
  {
    if |buckets| == 0 then None
    else if buckets[0].name == name then Some(buckets[0])
    else
      var r := FindBucket(buckets[1..], name);
      if r.Some? then
        var i :| 0 <= i < |buckets[1..]| && buckets[1..][i] == r.value
                 && forall j :: 0 <= j < i ==> buckets[1..][j].name != name;
        assert buckets[i + 1] == r.value;
        assert forall j :: 0 <= j < i + 1 ==> buckets[j].name != name by {
          forall j | 0 <= j < i + 1 ensures buckets[j].name != name {
            if j > 0 { assert buckets[j] == buckets[1..][j - 1]; }
          }
        }
        r
      else r
  }

  // ---------------------------------------------------------------------------
  // Queries

  predicate MoreViews(a: Row, b: Row)
  {
    a.views >= b.views
  }

  predicate BetterRank(a: Row, b: Row)
  {
    a.rank <= b.rank
  }

  /** `getAllTimeTopData(limit)`: one row per url, most viewed first, at most
      `limit` of them; any de-duplicated row left out has no more views than
      the last one returned. */
  function GetAllTimeTopData(st: DataState, limit: nat): (r: seq<Row>)
    ensures |r| <= limit
    ensures |r| == if limit < |Utils.RemoveDuplicatesByUrl(st.allData)| then limit
                   else |Utils.RemoveDuplicatesByUrl(st.allData)|
    ensures DistinctKeys(r, UrlOf)
    ensures forall i, j :: 0 <= i < j < |r| ==> r[i].views >= r[j].views
    ensures forall k :: 0 <= k < |r| ==> r[k] in Utils.RemoveDuplicatesByUrl(st.allData)
    ensures forall x :: x in Utils.RemoveDuplicatesByUrl(st.allData) && x !in r ==>
      |r| == limit && (limit > 0 ==> x.views <= r[limit - 1].views)
  {
    var unique := Utils.RemoveDuplicatesByUrl(st.allData);
    assert Sorting.TotalPreorder(MoreViews);
    var sorted := Sorting.Sort(unique, MoreViews);
    Sorting.SortKeepsKeysDistinct(unique, MoreViews, UrlOf);
    Sorting.TakeLeavesOutLater(sorted, limit, MoreViews);
    Take(sorted, limit)
  }

  /** With a positive limit the all-time ranking is empty exactly when the
      data holds no row. */
  lemma TopDataEmpty(st: DataState, limit: nat)
    requires limit > 0
    ensures |GetAllTimeTopData(st, limit)| == 0 <==> |st.allData| == 0
  {
    var unique := Utils.RemoveDuplicatesByUrl(st.allData);
    if |st.allData| > 0 {
      assert UrlOf(st.allData[0]) in Keys(st.allData, UrlOf);
      assert Keys(unique, UrlOf) != {};
    }
  }

  /** The rows whose date key is `date`, in order. */
  function RowsOn(rows: seq<Row>, date: string): (r: seq<Row>)
    ensures IsSubseq(r, rows)
    ensures forall k :: 0 <= k < |r| ==> DateKeyOf(r[k]) == date && r[k] in rows
    ensures forall x :: x in rows && DateKeyOf(x) == date ==> x in r
  {
    if |rows| == 0 then []
    else
      var rest := RowsOn(rows[1..], date);
      if DateKeyOf(rows[0]) == date then
        var r := [rows[0]] + rest;
        assert r[1..] == rest;
        r
      else rest
  }

  /** Each row of that date occurs in `RowsOn` as often as in the data, and
      no other row occurs: `filter` keeps multiplicities. */
  lemma {:induction false} RowsOnCounts(rows: seq<Row>, date: string)
    ensures forall x :: multiset(RowsOn(rows, date))[x] ==
                        (if DateKeyOf(x) == date then multiset(rows)[x] else 0)
  {
    if |rows| > 0 {
      RowsOnCounts(rows[1..], date);
      assert rows == [rows[0]] + rows[1..];
      assert multiset(rows) == multiset{rows[0]} + multiset(rows[1..]);
      var rest := RowsOn(rows[1..], date);
      if DateKeyOf(rows[0]) == date {
        assert RowsOn(rows, date) == [rows[0]] + rest;
        assert multiset(RowsOn(rows, date)) == multiset{rows[0]} + multiset(rest);
      } else {
        assert RowsOn(rows, date) == rest;
      }
    }
  }

  /** `getDailyData(date, limit)`: that day's rows in rank order, at most
      `limit` of them; any row of that day left out ranks no better than the
      last one returned. */
  function GetDailyData(st: DataState, date: string, limit: nat): (r: seq<Row>)
    ensures |r| == if limit < |RowsOn(st.allData, date)| then limit else |RowsOn(st.allData, date)|
    ensures forall k :: 0 <= k < |r| ==> DateKeyOf(r[k]) == date && r[k] in st.allData
    ensures forall i, j :: 0 <= i < j < |r| ==> r[i].rank <= r[j].rank
    ensures multiset(r) <= multiset(RowsOn(st.allData, date))
    ensures forall x :: x in st.allData && DateKeyOf(x) == date && x !in r ==>
      |r| == limit && (limit > 0 ==> r[limit - 1].rank <= x.rank)
  {
    var matching := RowsOn(st.allData, date);
    assert Sorting.TotalPreorder(BetterRank);
    var sorted := Sorting.Sort(matching, BetterRank);
    Sorting.TakeLeavesOutLater(sorted, limit, BetterRank);
    var r := Take(sorted, limit);
    TakeIsSubMultiset(sorted, limit);
    forall k | 0 <= k < |r| ensures DateKeyOf(r[k]) == date && r[k] in st.allData {
      assert r[k] == sorted[k];
      assert sorted[k] in matching;
    }
    r
  }

  lemma TakeIsSubMultiset<T>(s: seq<T>, n: nat)
    ensures multiset(Take(s, n)) <= multiset(s)
  {
    var r := Take(s, n);
    assert s == r + s[|r|..];
  }

  // ---------------------------------------------------------------------------
  // Category statistics

  function BucketStats(b: Bucket): CategoryStats
  {
    var views := Utils.GetDataStatistics(b.data, Views);
    var likes := Utils.GetDataStatistics(b.data, Likes);
    CategoryStats(b.name, b.color, views.avg, likes.avg, |b.data|, views.max, likes.max)
  }

  /** The buckets other than the overall one, in order. */
  function NamedBuckets(buckets: seq<Bucket>): (r: seq<Bucket>)
    ensures forall k :: 0 <= k < |r| ==> r[k] in buckets && r[k].name != OverallName
    ensures forall b :: b in buckets && b.name != OverallName ==> b in r
    ensures IsSubseq(r, buckets)
  {
    if |buckets| == 0 then []
    else
      var rest := NamedBuckets(buckets[1..]);
      if buckets[0].name != OverallName then
        var r := [buckets[0]] + rest;
        assert r[1..] == rest;
        r
      else rest
  }

  /** Each bucket other than the overall one keeps its multiplicity, and
      the overall one is dropped. */
  lemma {:induction false} NamedBucketsCounts(buckets: seq<Bucket>, x: Bucket)
    ensures multiset(NamedBuckets(buckets))[x] == if x.name != OverallName then multiset(buckets)[x] else 0
  {
    if |buckets| > 0 {
      NamedBucketsCounts(buckets[1..], x);
      assert buckets == [buckets[0]] + buckets[1..];
    }
  }

  /** `prepareCategoryStatistics`: one entry per bucket other than the
      overall one, in order, each averaging only positive counts. */
  function PrepareCategoryStatistics(buckets: seq<Bucket>): (r: seq<CategoryStats>)
    ensures |r| == |NamedBuckets(buckets)|
    ensures forall i :: 0 <= i < |r| ==>
      var b := NamedBuckets(buckets)[i];
      && r[i].name == b.name && r[i].name != OverallName
      && r[i].color == b.color
      && r[i].totalVideos == |b.data|
      && r[i].avgViews <= r[i].maxViews as real
      && r[i].avgLikes <= r[i].maxLikes as real
      && (r[i].maxViews == 0 <==> forall k :: 0 <= k < |b.data| ==> b.data[k].views == 0)
      && (r[i].maxLikes == 0 <==> forall k :: 0 <= k < |b.data| ==> b.data[k].likes == 0)
      && r[i].avgViews == Utils.GetDataStatistics(b.data, Views).avg
      && r[i].avgLikes == Utils.GetDataStatistics(b.data, Likes).avg
      && r[i].maxViews == Utils.GetDataStatistics(b.data, Views).max
      && r[i].maxLikes == Utils.GetDataStatistics(b.data, Likes).max
  {
    var named := NamedBuckets(buckets);
    seq(|named|, i requires 0 <= i < |named| => BucketStats(named[i]))
  }

  /** The chart built from a successful category fetch has one bar per
      category after `All`, in list order, each counting that category's
      rows without the header. */
  lemma StatisticsCoverEachCategory(results: seq<seq<Row>>)
    requires |results| == |Categories|
    ensures var stats := PrepareCategoryStatistics(ShapeBuckets(Categories, results));
            && |stats| == |Categories| - 1
            && forall i :: 0 <= i < |stats| ==>
                 stats[i].name == Categories[i + 1] && stats[i].totalVideos == |DropFirst(results[i + 1])|
  {
    var buckets := ShapeBuckets(Categories, results);
    assert buckets[0].name == OverallName;
    var tail := buckets[1..];
    assert forall i :: 0 <= i < |tail| ==> tail[i] == buckets[i + 1];
    forall i | 1 <= i < |Categories| ensures Categories[i] != OverallName {
      OnlyFirstIsAll(i);
    }
    NamedBucketsKeepsAll(tail);
    assert NamedBuckets(buckets) == tail;
    var stats := PrepareCategoryStatistics(buckets);
    forall i | 0 <= i < |stats|
      ensures stats[i].name == Categories[i + 1] && stats[i].totalVideos == |DropFirst(results[i + 1])|
    {
      assert tail[i] == buckets[i + 1];
      assert stats[i].name == tail[i].name;
      assert buckets[i + 1].name == DisplayName(Categories[i + 1]);
      OnlyFirstIsAll(i + 1);
      assert stats[i].totalVideos == |tail[i].data|;
      assert buckets[i + 1].data == DropFirst(results[i + 1]);
    }
  }

  lemma {:induction false} NamedBucketsKeepsAll(buckets: seq<Bucket>)
    requires forall i :: 0 <= i < |buckets| ==> buckets[i].name != OverallName
    ensures NamedBuckets(buckets) == buckets
  {
    if |buckets| > 0 {
      NamedBucketsKeepsAll(buckets[1..]);
    }
  }
}

=== FILE: jsonp.dfy ===
/** The one-shot latch around a script-injection (JSONP) request. The
    script's callback, the script's `onerror` and a 15-second timer race to
    settle one promise; an `isCompleted` flag lets only the first through,
    and that first handler removes the script tag, deletes the global
    callback and clears the timer before settling. */
module Jsonp {
  import opened Wrappers
  import opened Rows

  /** Why a fetch rejects. */
  datatype FetchError =
    | HttpError(status: int)       // a response whose `ok` is false
    | TransportFailure             // `fetch` or `response.json()` rejected
    | ScriptLoadFailed             // the injected script's `onerror`
    | TimedOut                     // the 15-second timer fired first
    | UndeclaredResponse           // a ReferenceError: `response` is not defined

  /** Something that reaches the latch. */
  datatype Event = Callback(payload: seq<Row>) | ScriptError | Timeout

  /** Milliseconds before the timer rejects the request. */
  const TimeoutMs: int := 15000

  datatype Latch = Latch(
    completed: bool,
    settled: Option<Result<seq<Row>, FetchError>>,
    scriptAttached: bool,
    callbackInstalled: bool,
    timerArmed: bool,
    settlements: nat)

  /** Right after the request is issued: script appended, callback
      installed, timer armed, nothing settled. */
  const Start: Latch := Latch(false, None, true, true, true, 0)

  /** Completed exactly when settled, settled at most once, and cleaned up
      exactly when completed. */
  predicate Consistent(l: Latch)
  {
    && (l.completed <==> l.settled.Some?)
    && l.settlements == (if l.completed then 1 else 0)
    && l.scriptAttached == !l.completed
    && l.callbackInstalled == !l.completed
    && l.timerArmed == !l.completed
  }

  /** What an event settles the promise with. */
  function OutcomeOf(e: Event): Result<seq<Row>, FetchError>
  {
    match e
    case Callback(data) => Ok(data)
    case ScriptError => Err(ScriptLoadFailed)
    case Timeout => Err(TimedOut)
  }

  /** One handler invocation: a no-op once completed, otherwise complete,
      clean up and settle. */
  function Step(l: Latch, e: Event): (r: Latch)
    ensures Consistent(l) ==> Consistent(r)
    ensures l.completed ==> r == l
    ensures !l.completed ==> r.completed && r.settled == Some(OutcomeOf(e))
  {
    if l.completed then l
    else Latch(true, Some(OutcomeOf(e)), false, false, false, l.settlements + 1)
  }

  /** The latch after the handlers fire in the order of `events`. */
  function Run(l: Latch, events: seq<Event>): (r: Latch)
    ensures Consistent(l) ==> Consistent(r)
    ensures l.completed ==> r == l
    ensures !l.completed && |events| > 0 ==> r.completed && r.settled == Some(OutcomeOf(events[0]))
    ensures |events| == 0 ==> r == l
    decreases |events|
  {
    if |events| == 0 then l else Run(Step(l, events[0]), events[1..])
  }

  /** Whichever event comes first settles the request; the promise is
      settled exactly once and everything is cleaned up. */
  lemma {:induction false} FirstEventWins(events: seq<Event>)
    requires |events| > 0
    ensures Run(Start, events).settled == Some(OutcomeOf(events[0]))
    ensures Run(Start, events).settlements == 1
    ensures !Run(Start, events).scriptAttached && !Run(Start, events).callbackInstalled
    ensures !Run(Start, events).timerArmed
  {
    assert Consistent(Start);
  }

  /** Events after the first change nothing: a late callback after a
      timeout, or a timeout after a callback, is ignored. */
  lemma {:induction false} LaterEventsIgnored(first: seq<Event>, later: seq<Event>)
    requires |first| > 0
    ensures Run(Start, first + later) == Run(Start, first)
  {
    var l := Step(Start, first[0]);
    assert (first + later)[1..] == first[1..] + later;
    RunAppend(l, first[1..], later);
  }

  lemma {:induction false} RunAppend(l: Latch, a: seq<Event>, b: seq<Event>)
    ensures Run(l, a + b) == Run(Run(l, a), b)
    decreases |a|
  {
    if |a| > 0 {
      assert (a + b)[1..] == a[1..] + b;
      RunAppend(Step(l, a[0]), a[1..], b);
    }
  }

  /** The request's outcome when `events` reach the handlers: the timer was
      armed at issue time, so it fires after them unless cleanup cleared it. */
  function Deliver(events: seq<Event>): (r: Latch)
    ensures Consistent(r) && r.completed && r.settlements == 1
    ensures |events| > 0 ==> r.settled == Some(OutcomeOf(events[0]))
    ensures |events| == 0 ==> r.settled == Some(Err(TimedOut))
  {
    assert Consistent(Start);
    assert (events + [Timeout])[0] == if |events| > 0 then events[0] else Timeout;
    Run(Start, events + [Timeout])
  }

  /** The settled value of a delivered request. */
  function Settlement(events: seq<Event>): (r: Result<seq<Row>, FetchError>)
    ensures |events| > 0 ==> r == OutcomeOf(events[0])
    ensures |events| == 0 ==> r == Err(TimedOut)
  {
    Deliver(events).settled.value
  }
}

=== FILE: legacy.dfy ===
/** The earlier, single-script version of the dashboard: the same data
    and views kept in globals, with the table written inline, no response
    cache, no status check on the main fetch, and the category chart
    averaging over every row. */
module Legacy {
  import opened Wrappers
  import opened Rows
  import opened Seqs
  import Text
  import Utils
  import Jsonp
  import Cache
  import DataManager
  import TableManager
  import opened ViewManager

  /** A category bucket of the earlier version: no raw category name. */
  datatype LegacyBucket = LegacyBucket(name: string, data: seq<Row>, color: string)

  /** The bars of the category chart: one label and two averages per
      category. */
  datatype ChartData = ChartData(labels: seq<string>, avgViews: seq<real>, avgLikes: seq<real>)

  datatype LegacyChart = SalesChart | CategoryBars(bars: ChartData)

  /** The page's globals and elements. `data` holds `allYouTubeData` and
      `availableDates`; its cache is never used here. */
  datatype Page = Page(
    view: View,
    active: set<View>,
    selectorShown: bool,
    categoryButtonShown: bool,
    select: DateSelect,
    chart: LegacyChart,
    table: TableManager.Table,
    data: DataManager.DataState,
    categoryData: seq<LegacyBucket>)

  const MainFailure: string := "データの取得に失敗しました"

  // ---------------------------------------------------------------------------
  // Table

  /** The cells the earlier `updateTable` writes: the rank as it is (0
      included), and the title always as a link. */
  function LegacyRowCells(row: Row): (r: seq<TableManager.Cell>)
    ensures |r| == |TableManager.Headers|
    ensures r[1] == TableManager.Plain(Text.NatToString(row.rank))
    ensures r[2] == TableManager.Link(row.title, row.url)
    ensures r[0] == TableManager.RowCells(row)[0]
    ensures r[3..] == TableManager.RowCells(row)[3..]
  {
    [ TableManager.Plain(row.timestamp),
      TableManager.Plain(Text.NatToString(row.rank)),
      TableManager.Link(row.title, row.url),
      TableManager.Plain(row.channel),
      TableManager.Plain(row.category),
      TableManager.Count(row.views),
      TableManager.Count(row.likes) ]
  }

  /** The two versions write the same row exactly when the rank is not 0
      and the url is not blank. */
  lemma LegacyCellsAgree(row: Row)
    ensures LegacyRowCells(row) == TableManager.RowCells(row) <==>
      row.rank > 0 && !Text.Blank(row.url)
  {
    var earlier := LegacyRowCells(row);
    var later := TableManager.RowCells(row);
    if row.rank == 0 {
      assert earlier[1].text != "" && later[1].text == "";
      assert earlier[1] != later[1];
    } else if Text.Blank(row.url) {
      assert earlier[2] != later[2];
    } else {
      assert later[1] == TableManager.Plain(TableManager.RankText(row.rank));
      assert later[2] == TableManager.Link(row.title, row.url);
      assert earlier == later;
    }
  }

  function LegacyPopulate(rows: seq<Row>): (r: seq<seq<TableManager.Cell>>)
    ensures |r| == |rows|
    ensures forall i :: 0 <= i < |rows| ==> r[i] == LegacyRowCells(rows[i])
  {
    if |rows| == 0 then [] else [LegacyRowCells(rows[0])] + LegacyPopulate(rows[1..])
  }

  /** The earlier `updateTable`: headings and a fresh body, title untouched. */
  function UpdateTable(t: TableManager.Table, rows: seq<Row>): (r: TableManager.Table)
    ensures r.head == TableManager.HeaderRow(TableManager.Headers)
    ensures r.body == LegacyPopulate(rows)
    ensures r.title == t.title && r.viewInfo == t.viewInfo && r.initialized == t.initialized
  {
    t.(head := TableManager.HeaderRow(TableManager.Headers), body := LegacyPopulate(rows))
  }

  /** `showTableLoading`: the default loading notice over seven columns and
      an empty body. */
  function ShowTableLoading(t: TableManager.Table): (r: TableManager.Table)
    ensures r.body == []
    ensures r.head == TableManager.Notice(TableManager.Loading, TableManager.DefaultLoadingMessage, 7)
    ensures r.title == t.title && r.viewInfo == t.viewInfo && r.initialized == t.initialized
  {
    t.(head := TableManager.Notice(TableManager.Loading, TableManager.DefaultLoadingMessage, 7), body := [])
  }

  /** `showTableError(message)`: the message over seven columns and an
      empty body. */
  function ShowTableError(t: TableManager.Table, message: string): (r: TableManager.Table)
    ensures r.body == []
    ensures r.head == TableManager.Notice(TableManager.Failure, message, 7)
    ensures r.title == t.title && r.viewInfo == t.viewInfo && r.initialized == t.initialized
  {
    t.(head := TableManager.Notice(TableManager.Failure, message, 7), body := [])
  }

  function ShowInfo(t: TableManager.Table, title: string, info: string): (r: TableManager.Table)
    ensures r.title == title && r.viewInfo == TableManager.ViewInfoPrefix + info
    ensures r.head == t.head && r.body == t.body && r.initialized == t.initialized
  {
    TableManager.UpdateTitle(TableManager.UpdateViewInfo(t, info), title)
  }

  // ---------------------------------------------------------------------------
  // Views

  /** The earlier `showAllTimeData`: the first row per url, most viewed
      first, at most fifty; the same query as `getAllTimeTopData(50)`. */
  function ShowAllTimeData(p: Page): (r: Page)
    ensures var rows := DataManager.GetAllTimeTopData(p.data, AllTimeLimit);
      && r.table.body == LegacyPopulate(rows)
      && |rows| <= 50
      && DistinctKeys(rows, UrlOf)
      && (forall i, j :: 0 <= i < j < |rows| ==> rows[i].views >= rows[j].views)
      && (forall k :: 0 <= k < |rows| ==> rows[k] in Utils.RemoveDuplicatesByUrl(p.data.allData))
    ensures r.table.title == AllTimeTitle
    ensures r.view == p.view && r.data == p.data && r.select == p.select && r.chart == p.chart
  {
    var rows := DataManager.GetAllTimeTopData(p.data, AllTimeLimit);
    p.(table := ShowInfo(UpdateTable(p.table, rows), AllTimeTitle, AllTimeInfo))
  }

  /** The earlier `showDailyData`: nothing for an empty date, an error
      notice when the date has no rows, otherwise that day's fifty
      best-ranked rows. */
  function ShowDailyData(p: Page, date: string): (r: Page)
    ensures date == "" ==> r == p
    ensures date != "" && |DataManager.GetDailyData(p.data, date, DailyLimit)| == 0 ==>
      && r.table.body == []
      && r.table.head == TableManager.Notice(TableManager.Failure, DailyNotFound(date), 7)
      && r.table.title == p.table.title
    ensures date != "" && |DataManager.GetDailyData(p.data, date, DailyLimit)| > 0 ==>
      && r.table.body == LegacyPopulate(DataManager.GetDailyData(p.data, date, DailyLimit))
      && r.table.title == DailyTitle(date)
      && r.table.viewInfo == TableManager.ViewInfoPrefix + DailyInfo(date, |r.table.body|)
    ensures r.view == p.view && r.data == p.data && r.select == p.select && r.chart == p.chart
  {
    if date == "" then p
    else
      var rows := DataManager.GetDailyData(p.data, date, DailyLimit);
      if |rows| == 0 then p.(table := ShowTableError(p.table, DailyNotFound(date)))
      else p.(table := ShowInfo(UpdateTable(p.table, rows), DailyTitle(date), DailyInfo(date, |rows|)))
  }

  /** The earlier `switchToAllTimeView`, followed by the button handler's
      return to the main chart. */
  function AllTimeClicked(p: Page): (r: Page)
    ensures r.view == All && r.active == {All} && !r.selectorShown && r.chart == SalesChart
    ensures r.table.body == LegacyPopulate(DataManager.GetAllTimeTopData(p.data, AllTimeLimit))
    ensures r.data == p.data
  {
    var switched := p.(view := All, active := {All}, selectorShown := false);
    ShowAllTimeData(switched).(chart := SalesChart)
  }

  /** The earlier `switchToDailyView`, followed by the return to the main
      chart: the newest date is selected and rendered when there is one. */
  function DailyClicked(p: Page): (r: Page)
    ensures r.view == Daily && r.active == {Daily} && r.selectorShown && r.chart == SalesChart
    ensures r.data == p.data
    ensures |p.data.availableDates| == 0 ==> r.table == p.table
    ensures |p.data.availableDates| > 0 ==>
      var newest := p.data.availableDates[0];
      && r.select == SetValue(p.select, newest)
      && (newest != "" && |DataManager.GetDailyData(p.data, newest, DailyLimit)| > 0 ==>
            r.table.body == LegacyPopulate(DataManager.GetDailyData(p.data, newest, DailyLimit))
            && r.table.title == DailyTitle(newest))
  {
    var switched := p.(view := Daily, active := {Daily}, selectorShown := true);
    var dates := p.data.availableDates;
    var shown :=
      if |dates| > 0 then ShowDailyData(switched.(select := SetValue(switched.select, dates[0])), dates[0])
      else switched;
    shown.(chart := SalesChart)
  }

  /** The earlier date-selector `change` handler: the chosen date is
      rendered the earlier way, and only in the daily view. */
  function DateChanged(p: Page, choice: string): (r: Page)
    ensures r.select == SetValue(p.select, choice)
    ensures p.view != Daily || r.select.value == "" ==> r.table == p.table
    ensures p.view == Daily && r.select.value != "" ==>
      r == ShowDailyData(p.(select := r.select), r.select.value)
    ensures r.view == p.view && r.active == p.active && r.data == p.data && r.chart == p.chart
  {
    var picked := p.(select := SetValue(p.select, choice));
    if picked.select.value != "" && p.view == Daily then ShowDailyData(picked, picked.select.value)
    else picked
  }

  /** The earlier 表示 button: the selected date in whatever view is current;
      nothing without a selection. */
  function LoadDateClicked(p: Page): (r: Page)
    ensures p.select.value == "" ==> r == p
    ensures var date := p.select.value;
      && (date != "" && |DataManager.GetDailyData(p.data, date, DailyLimit)| == 0 ==>
            r.table.head == TableManager.Notice(TableManager.Failure, DailyNotFound(date), 7) && r.table.body == [])
      && (date != "" && |DataManager.GetDailyData(p.data, date, DailyLimit)| > 0 ==>
            r.table.body == LegacyPopulate(DataManager.GetDailyData(p.data, date, DailyLimit))
            && r.table.title == DailyTitle(date))
    ensures r.view == p.view && r.data == p.data && r.select == p.select
  {
    ShowDailyData(p, p.select.value)
  }

  // ---------------------------------------------------------------------------
  // Main data

  /** The earlier `fetchYouTubeData`: a loading notice, then the body of
      whatever arrived, without looking at the status; the date selector is
      rebuilt and the all-time ranking shown, whatever the current view. */
  function FetchYouTubeData(p: Page, response: DataManager.MainResponse): (r: Page)
    ensures r.view == p.view && r.active == p.active && r.selectorShown == p.selectorShown
    ensures response.Unreachable? ==>
      && r.data == p.data
      && r.table.body == []
      && r.table.head == TableManager.Notice(TableManager.Failure, MainFailure, 7)
    ensures response.Response? ==>
      && r.data.allData == DropFirst(response.body)
      && r.data.availableDates == DataManager.AvailableDates(DropFirst(response.body))
      && r.select == FillDateSelect(r.data.availableDates)
      && r.table.body == LegacyPopulate(DataManager.GetAllTimeTopData(r.data, AllTimeLimit))
      && r.table.title == AllTimeTitle
  {
    var loading := p.(table := ShowTableLoading(p.table));
    match response
    case Unreachable => loading.(table := ShowTableError(loading.table, MainFailure))
    case Response(_, _, body) =>
      var data := DataManager.ProcessMainData(p.data, body);
      var filled := loading.(data := data, select := FillDateSelect(data.availableDates));
      ShowAllTimeData(filled)
  }

  /** Unlike `fetchYouTubeData` in the data manager, the earlier version
      shows the body of a failed response as data. */
  lemma FailedStatusShownAsData(p: Page, status: int, body: seq<Row>, now: int)
    requires Cache.MainKey !in p.data.cache
    ensures FetchYouTubeData(p, DataManager.Response(false, status, body)).data.allData == DropFirst(body)
    ensures DataManager.FetchMain(p.data, now, DataManager.Response(false, status, body), now).result ==
      Err(Jsonp.HttpError(status))
  {
  }

  // ---------------------------------------------------------------------------
  // Category analysis

  /** The earlier `fetchYouTubeDataByCategory`: no cache, the latch alone
      decides, and the timer settles a request no handler answered. */
  function FetchByCategory(events: seq<Jsonp.Event>): (r: Result<seq<Row>, Jsonp.FetchError>)
    ensures |events| > 0 && events[0].Callback? ==> r == Ok(events[0].payload)
    ensures |events| > 0 && events[0].ScriptError? ==> r == Err(Jsonp.ScriptLoadFailed)
    ensures |events| == 0 || events[0].Timeout? ==> r == Err(Jsonp.TimedOut)
  {
    Jsonp.Settlement(events)
  }

  /** `cat.data.map(row => parseInt(row[column]) || 0)` averaged over every
      row; an empty bucket averages to 0. */
  function ColumnMean(rows: seq<Row>, c: Column): (r: real)
    ensures |rows| == 0 ==> r == 0.0
    ensures |rows| > 0 ==> r * (|rows| as real) == Utils.Sum(Utils.ColumnOf(rows, c)) as real
  {
    if |rows| == 0 then 0.0 else Utils.Mean(Utils.Sum(Utils.ColumnOf(rows, c)), |rows|)
  }

  /** The buckets other than the overall one, in order. */
  function NamedBuckets(buckets: seq<LegacyBucket>): (r: seq<LegacyBucket>)
    ensures forall k :: 0 <= k < |r| ==> r[k] in buckets && r[k].name != DataManager.OverallName
    ensures forall b :: b in buckets && b.name != DataManager.OverallName ==> b in r
    ensures IsSubseq(r, buckets)
  {
    if |buckets| == 0 then []
    else
      var rest := NamedBuckets(buckets[1..]);
      if buckets[0].name != DataManager.OverallName then
        var r := [buckets[0]] + rest;
        assert r[1..] == rest;
        r
      else rest
  }

  /** Each bucket other than the overall one keeps its multiplicity, and
      the overall one is dropped. */
  lemma {:induction false} NamedBucketsCounts(buckets: seq<LegacyBucket>, x: LegacyBucket)
    ensures multiset(NamedBuckets(buckets))[x] == if x.name != DataManager.OverallName then multiset(buckets)[x] else 0
  {
    if |buckets| > 0 {
      NamedBucketsCounts(buckets[1..], x);
      assert buckets == [buckets[0]] + buckets[1..];
    }
  }

  /** `prepareCategoryChartData`: one bar per bucket other than the overall
      one, averaging every row. */
  function PrepareCategoryChartData(buckets: seq<LegacyBucket>): (r: ChartData)
    ensures var named := NamedBuckets(buckets);
      && |r.labels| == |named| && |r.avgViews| == |named| && |r.avgLikes| == |named|
      && forall i :: 0 <= i < |named| ==>
           && r.labels[i] == named[i].name && r.labels[i] != DataManager.OverallName
           && r.avgViews[i] == ColumnMean(named[i].data, Views)
           && r.avgLikes[i] == ColumnMean(named[i].data, Likes)
           && (|named[i].data| == 0 ==> r.avgViews[i] == 0.0 && r.avgLikes[i] == 0.0)
  {
    var named := NamedBuckets(buckets);
    ChartData(
      seq(|named|, i requires 0 <= i < |named| => named[i].name),
      seq(|named|, i requires 0 <= i < |named| => ColumnMean(named[i].data, Views)),
      seq(|named|, i requires 0 <= i < |named| => ColumnMean(named[i].data, Likes)))
  }

  lemma {:induction false} SumColumnIsSumPositive(rows: seq<Row>, c: Column)
    ensures Utils.Sum(Utils.ColumnOf(rows, c)) == Utils.Sum(Utils.PositiveValues(rows, c))
  {
    if |rows| > 0 {
      SumColumnIsSumPositive(rows[1..], c);
      var v := ColumnValue(rows[0], c);
      var column := Utils.ColumnOf(rows, c);
      var positive := Utils.PositiveValues(rows, c);
      assert column[0] == v && column[1..] == Utils.ColumnOf(rows[1..], c);
      if v > 0 {
        assert positive[0] == v && positive[1..] == Utils.PositiveValues(rows[1..], c);
      } else {
        assert positive == Utils.PositiveValues(rows[1..], c);
      }
    }
  }

  lemma {:induction false} SumNonNegative(rows: seq<Row>, c: Column)
    ensures Utils.Sum(Utils.ColumnOf(rows, c)) >= 0
  {
    if |rows| > 0 {
      SumNonNegative(rows[1..], c);
      assert Utils.ColumnOf(rows, c) == [ColumnValue(rows[0], c)] + Utils.ColumnOf(rows[1..], c);
    }
  }

  lemma {:induction false} AllPositiveKeepsColumn(rows: seq<Row>, c: Column)
    requires forall i :: 0 <= i < |rows| ==> ColumnValue(rows[i], c) > 0
    ensures Utils.PositiveValues(rows, c) == Utils.ColumnOf(rows, c)
  {
    if |rows| > 0 {
      AllPositiveKeepsColumn(rows[1..], c);
      assert Utils.ColumnOf(rows, c) == [ColumnValue(rows[0], c)] + Utils.ColumnOf(rows[1..], c);
    }
  }

  /** Dividing the same non-negative total among more entries gives a
      smaller mean. */
  lemma MeanShrinks(total: int, more: nat, fewer: nat)
    requires total >= 0 && 0 < fewer <= more
    ensures Utils.Mean(total, more) <= Utils.Mean(total, fewer)
  {
    var a := Utils.Mean(total, more);
    var b := Utils.Mean(total, fewer);
    Utils.ScaleCancel(0.0, a, more as real);
    assert a * (fewer as real) <= a * (more as real);
    Utils.ScaleCancel(a, b, fewer as real);
  }

  /** A bucket whose counts are all 0 averages to 0 in the earlier chart. */
  lemma ZeroColumnMean(rows: seq<Row>, c: Column)
    requires |rows| > 0 && |Utils.PositiveValues(rows, c)| == 0
    ensures ColumnMean(rows, c) == 0.0
  {
    Utils.NoPositiveValues(rows, c);
    SumColumnIsSumPositive(rows, c);
    assert Utils.Sum(Utils.PositiveValues(rows, c)) == 0;
    Utils.ScaleCancel(ColumnMean(rows, c), 0.0, |rows| as real);
    Utils.ScaleCancel(0.0, ColumnMean(rows, c), |rows| as real);
  }

  /** The earlier chart's average never exceeds the statistics' average,
      which leaves zero counts out; the two agree when every count is
      positive. */
  lemma ChartAverageAtMostStatistics(rows: seq<Row>, c: Column)
    ensures ColumnMean(rows, c) <= Utils.GetDataStatistics(rows, c).avg
    ensures (forall i :: 0 <= i < |rows| ==> ColumnValue(rows[i], c) > 0) ==>
      ColumnMean(rows, c) == Utils.GetDataStatistics(rows, c).avg
  {
    var positive := Utils.PositiveValues(rows, c);
    var stats := Utils.GetDataStatistics(rows, c);
    if |rows| > 0 {
      if |positive| == 0 {
        ZeroColumnMean(rows, c);
        assert stats.avg == 0.0;
      } else {
        SumColumnIsSumPositive(rows, c);
        SumNonNegative(rows, c);
        var total := Utils.Sum(positive);
        assert stats.avg == Utils.Mean(total, |positive|);
        assert ColumnMean(rows, c) == Utils.Mean(total, |rows|);
        MeanShrinks(total, |rows|, |positive|);
        if forall i :: 0 <= i < |rows| ==> ColumnValue(rows[i], c) > 0 {
          AllPositiveKeepsColumn(rows, c);
        }
      }
    }
  }

  /** The buckets of a completed category fetch. */
  function LegacyBuckets(results: seq<seq<Row>>): (r: seq<LegacyBucket>)
    requires |results| == |DataManager.Categories|
    ensures |r| == |DataManager.Categories|
    ensures forall i :: 0 <= i < |r| ==>
      r[i] == LegacyBucket(DataManager.DisplayName(DataManager.Categories[i]), DropFirst(results[i]),
                           Utils.CategoryColor(DataManager.Categories[i]))
  {
    seq(|DataManager.Categories|, i requires 0 <= i < |DataManager.Categories| =>
      LegacyBucket(DataManager.DisplayName(DataManager.Categories[i]), DropFirst(results[i]),
                   Utils.CategoryColor(DataManager.Categories[i])))
  }

  /** `showCategoryAnalysis`: a loading notice, one script request per
      category, then the chart and the first twenty overall rows; any
      rejection leaves the error notice and the buckets as they were. */
  function ShowCategoryAnalysis(p: Page, traces: seq<seq<Jsonp.Event>>): (r: Page)
    requires |traces| == |DataManager.Categories|
    ensures r.view == p.view && r.active == p.active && r.data == p.data
    ensures var results := seq(|traces|, i requires 0 <= i < |traces| => FetchByCategory(traces[i]));
      && (DataManager.AllOk(results).Err? ==>
            && r.categoryData == p.categoryData
            && r.table.body == []
            && r.table.head == TableManager.Notice(TableManager.Failure, CategoryFailure, 7)
            && r.table.title == CategoryLoadingTitle)
      && (DataManager.AllOk(results).Ok? ==>
            && r.table.body == LegacyPopulate(Take(DropFirst(results[0].value), CategoryTableLimit))
            && r.categoryData == LegacyBuckets(DataManager.AllOk(results).value)
            && r.chart == CategoryBars(PrepareCategoryChartData(r.categoryData))
            && r.table.title == CategoryTitle
            && r.table.viewInfo == TableManager.ViewInfoPrefix + CategoryInfo(6))
  {
    var loading := p.(table := TableManager.UpdateTitle(ShowTableLoading(p.table), CategoryLoadingTitle));
    var results := seq(|traces|, i requires 0 <= i < |traces| => FetchByCategory(traces[i]));
    match DataManager.AllOk(results)
    case Err(_) => loading.(table := ShowTableError(loading.table, CategoryFailure))
    case Ok(values) =>
      var buckets := LegacyBuckets(values);
      var rows := Take(DropFirst(values[0]), CategoryTableLimit);
      var t := ShowInfo(UpdateTable(loading.table, rows), CategoryTitle, CategoryInfo(|DataManager.Categories|));
      loading.(categoryData := buckets, chart := CategoryBars(PrepareCategoryChartData(buckets)), table := t)
  }

  /** The earlier `switchToCategoryView`: the category view is set before
      the analysis starts. */
  function SwitchToCategoryView(p: Page, traces: seq<seq<Jsonp.Event>>): (r: Page)
    requires |traces| == |DataManager.Categories|
    ensures r.view == Category && r.active == {Category} && !r.selectorShown
    ensures var results := seq(|traces|, i requires 0 <= i < |traces| => FetchByCategory(traces[i]));
      && (DataManager.AllOk(results).Err? ==>
            r.table.head == TableManager.Notice(TableManager.Failure, CategoryFailure, 7))
      && (DataManager.AllOk(results).Ok? ==>
            r.table.body == LegacyPopulate(Take(DropFirst(results[0].value), CategoryTableLimit)))
  {
    ShowCategoryAnalysis(p.(view := Category, active := {Category}, selectorShown := false), traces)
  }

  /** The earlier dashboard button: the category button appears and the
      cacheless category analysis runs. */
  function DashboardClicked(p: Page, traces: seq<seq<Jsonp.Event>>): (r: Page)
    requires |traces| == |DataManager.Categories|
    ensures r.categoryButtonShown
    ensures r.view == Category && r.active == {Category} && !r.selectorShown
    ensures var results := seq(|traces|, i requires 0 <= i < |traces| => FetchByCategory(traces[i]));
      && (DataManager.AllOk(results).Err? ==>
            r.table.head == TableManager.Notice(TableManager.Failure, CategoryFailure, 7))
      && (DataManager.AllOk(results).Ok? ==>
            r.table.body == LegacyPopulate(Take(DropFirst(results[0].value), CategoryTableLimit)))
  {
    SwitchToCategoryView(p.(categoryButtonShown := true), traces)
  }

  /** The refresh button: the category analysis again in the category view,
      otherwise the main fetch, which shows the all-time ranking even in
      the daily view. The view never changes. */
  function Refresh(p: Page, response: DataManager.MainResponse, traces: seq<seq<Jsonp.Event>>): (r: Page)
    requires |traces| == |DataManager.Categories|
    ensures r.view == p.view && r.active == p.active && r.selectorShown == p.selectorShown
    ensures p.view == Category ==> r.data == p.data && r.select == p.select
    ensures p.view != Category && response.Response? ==>
      && r.data.allData == DropFirst(response.body)
      && r.table.body == LegacyPopulate(DataManager.GetAllTimeTopData(r.data, AllTimeLimit))
      && r.table.title == AllTimeTitle
    ensures p.view != Category && response.Unreachable? ==>
      r.table.head == TableManager.Notice(TableManager.Failure, MainFailure, 7) && r.data == p.data
  {
    if p.view == Category then ShowCategoryAnalysis(p, traces) else FetchYouTubeData(p, response)
  }
}

=== FILE: rows.dfy ===
/** The trending-video record: one positional spreadsheet row. */
module Rows {

  /** The eleven columns of a row, by position: 0 timestamp, 1 rank, 2 title,
      3 channel, 4 description, 5 category, 6 duration, 7 view count,
      8 like count, 9 comment count, 10 url. The numeric columns are
      naturals; the source coerces them with `Number` / `parseFloat`. */
  datatype Row = Row(
    timestamp: string,
    rank: nat,
    title: string,
    channel: string,
    description: string,
    category: string,
    duration: string,
    views: nat,
    likes: nat,
    comments: nat,
    url: string)

  function UrlOf(r: Row): string
  {
    r.url
  }

  /** A numeric column the statistics read: 7 (views) or 8 (likes). */
  datatype Column = Views | Likes

  function ColumnValue(r: Row, c: Column): nat
  {
    match c
    case Views => r.views
    case Likes => r.likes
  }
}

=== FILE: seqs.dfy ===
/** Generic sequence helpers: subsequences, key sets, first-occurrence
    de-duplication and prefixes. */
module Seqs {

  /** `a` can be obtained from `b` by deleting elements. */
  predicate IsSubseq<T(==)>(a: seq<T>, b: seq<T>)
    decreases |b|
  {
    |a| == 0 ||
    (|b| > 0 &&
      ((a[0] == b[0] && IsSubseq(a[1..], b[1..])) || IsSubseq(a, b[1..])))
  }

  lemma {:induction false} SubseqMembers<T>(a: seq<T>, b: seq<T>)
    requires IsSubseq(a, b)
    ensures forall x :: x in a ==> x in b
    decreases |b|
  {
    if |a| > 0 {
      if a[0] == b[0] && IsSubseq(a[1..], b[1..]) {
        SubseqMembers(a[1..], b[1..]);
        forall x | x in a ensures x in b {
          if x != a[0] {
            assert x in a[1..];
          }
        }
      } else {
        SubseqMembers(a, b[1..]);
      }
    }
  }

  /** The set of keys carried by the elements of `s`. */
  function Keys<T, K>(s: seq<T>, key: T -> K): set<K>
  {
    set i | 0 <= i < |s| :: key(s[i])
  }

  /** No two elements of `s` carry the same key. */
  predicate DistinctKeys<T, K(==)>(s: seq<T>, key: T -> K)
  {
    forall i, j :: 0 <= i < j < |s| ==> key(s[i]) != key(s[j])
  }

  /** Element `i` is the first one in `s` carrying its key. */
  predicate FirstWithKey<T, K(==)>(s: seq<T>, key: T -> K, i: int)
  {
    0 <= i < |s| && forall j :: 0 <= j < i ==> key(s[j]) != key(s[i])
  }

  /** Keeps each element whose key is not yet in `seen`, adding its key as
      it goes: the behaviour of `filter` guarded by a growing `Set`. */
  function DistinctBy<T, K>(s: seq<T>, key: T -> K, seen: set<K>): (r: seq<T>)
    ensures IsSubseq(r, s)
    ensures DistinctKeys(r, key)
    ensures Keys(r, key) == Keys(s, key) - seen
    ensures forall k :: 0 <= k < |r| ==> r[k] in s && key(r[k]) !in seen
    decreases |s|
  {
    if |s| == 0 then []
    else if key(s[0]) in seen then
      var rest := DistinctBy(s[1..], key, seen);
      assert Keys(s, key) == {key(s[0])} + Keys(s[1..], key) by {
        KeysCons(s, key);
      }
      rest
    else
      var rest := DistinctBy(s[1..], key, seen + {key(s[0])});
      var r := [s[0]] + rest;
      assert r[1..] == rest;
      KeysCons(s, key);
      KeysCons(r, key);
      r
  }

  lemma KeysCons<T, K>(s: seq<T>, key: T -> K)
    requires |s| > 0
    ensures Keys(s, key) == {key(s[0])} + Keys(s[1..], key)
  {
    forall k | k in Keys(s, key) ensures k in {key(s[0])} + Keys(s[1..], key) {
      var i :| 0 <= i < |s| && key(s[i]) == k;
      if i > 0 {
        assert key(s[1..][i - 1]) == k;
      }
    }
    forall k | k in Keys(s[1..], key) ensures k in Keys(s, key) {
      var i :| 0 <= i < |s[1..]| && key(s[1..][i]) == k;
      assert key(s[i + 1]) == k;
    }
  }

  /** Every element DistinctBy keeps is the first element of the input
      carrying its key. */
  lemma {:induction false} DistinctByKeepsFirst<T, K>(s: seq<T>, key: T -> K, seen: set<K>)
    ensures forall k :: 0 <= k < |DistinctBy(s, key, seen)| ==>
      exists i :: FirstWithKey(s, key, i) && s[i] == DistinctBy(s, key, seen)[k]
    decreases |s|
  {
    var r := DistinctBy(s, key, seen);
    if |s| > 0 {
      if key(s[0]) in seen {
        DistinctByKeepsFirst(s[1..], key, seen);
        forall k | 0 <= k < |r|
          ensures exists i :: FirstWithKey(s, key, i) && s[i] == r[k]
        {
          var i :| FirstWithKey(s[1..], key, i) && s[1..][i] == r[k];
          assert key(r[k]) !in seen;
          assert FirstWithKey(s, key, i + 1);
        }
      } else {
        var seen' := seen + {key(s[0])};
        var rest := DistinctBy(s[1..], key, seen');
        DistinctByKeepsFirst(s[1..], key, seen');
        assert r == [s[0]] + rest;
        forall k | 0 <= k < |r|
          ensures exists i :: FirstWithKey(s, key, i) && s[i] == r[k]
        {
          if k == 0 {
            assert FirstWithKey(s, key, 0);
          } else {
            assert r[k] == rest[k - 1];
            var i :| FirstWithKey(s[1..], key, i) && s[1..][i] == rest[k - 1];
            assert key(rest[k - 1]) !in seen';
            assert FirstWithKey(s, key, i + 1);
          }
        }
      }
    }
  }

  /** The first `n` elements (all of them when there are fewer): `slice(0, n)`. */
  function Take<T>(s: seq<T>, n: nat): (r: seq<T>)
    ensures |r| == if n < |s| then n else |s|
    ensures r <= s
  {
    if n < |s| then s[..n] else s
  }

  /** Everything but the first element; empty for an empty input: `slice(1)`. */
  function DropFirst<T>(s: seq<T>): (r: seq<T>)
    ensures |s| > 0 ==> r == s[1..]
    ensures |s| == 0 ==> r == []
  {
    if |s| == 0 then [] else s[1..]
  }
}

=== FILE: sorting.dfy ===
/** Stable insertion sort over a total preorder. JavaScript's
    `Array.prototype.sort` is stable, so a comparator `(a, b) => k(a) - k(b)`
    orders by `k` and keeps input order among ties; `le(a, b)` here means
    "a may come before b". */
module Sorting {
  import opened Seqs

  ghost predicate TotalPreorder<T(!new)>(le: (T, T) -> bool)
  {
    && (forall x, y :: le(x, y) || le(y, x))
    && (forall x, y, z :: le(x, y) && le(y, z) ==> le(x, z))
  }

  predicate Sorted<T>(s: seq<T>, le: (T, T) -> bool)
  {
    forall i, j :: 0 <= i < j < |s| ==> le(s[i], s[j])
  }

  /** Inserts `x` before the first element it may precede. */
  function Insert<T>(x: T, s: seq<T>, le: (T, T) -> bool): seq<T>
  {
    if |s| == 0 || le(x, s[0]) then [x] + s else [s[0]] + Insert(x, s[1..], le)
  }

  /** Inserting into a sorted sequence keeps it sorted and adds exactly `x`. */
  lemma {:induction false} InsertFacts<T(!new)>(x: T, s: seq<T>, le: (T, T) -> bool)
    requires TotalPreorder(le)
    requires Sorted(s, le)
    ensures Sorted(Insert(x, s, le), le)
    ensures multiset(Insert(x, s, le)) == multiset(s) + multiset{x}
    ensures |Insert(x, s, le)| == |s| + 1
    ensures forall e :: e in Insert(x, s, le) <==> e == x || e in s
  {
    if |s| > 0 && !le(x, s[0]) {
      var rest := Insert(x, s[1..], le);
      InsertFacts(x, s[1..], le);
      assert s == [s[0]] + s[1..];
      forall k | 0 <= k < |rest| ensures le(s[0], rest[k]) {
        assert rest[k] in multiset(rest);
        if rest[k] != x {
          assert rest[k] in multiset(s[1..]);
          assert rest[k] in s[1..];
        }
      }
      assert Insert(x, s, le) == [s[0]] + rest;
    }
  }

  /** Sorts `s` so that `le` holds between every earlier and later element. */
  function Sort<T(!new)>(s: seq<T>, le: (T, T) -> bool): (r: seq<T>)
    requires TotalPreorder(le)
    ensures Sorted(r, le)
    ensures multiset(r) == multiset(s)
    ensures |r| == |s|
    ensures forall e :: e in r <==> e in s
  {
    if |s| == 0 then []
    else
      assert s == [s[0]] + s[1..];
      var sorted := Sort(s[1..], le);
      InsertFacts(s[0], sorted, le);
      Insert(s[0], sorted, le)
  }

  /** The elements of `s` that `le` ranks level with `c`, in their order. */
  function Ties<T>(s: seq<T>, le: (T, T) -> bool, c: T): seq<T>
  {
    if |s| == 0 then []
    else (if le(s[0], c) && le(c, s[0]) then [s[0]] else []) + Ties(s[1..], le, c)
  }

  lemma TiesCons<T>(h: T, t: seq<T>, le: (T, T) -> bool, c: T)
    ensures Ties([h] + t, le, c) == (if le(h, c) && le(c, h) then [h] else []) + Ties(t, le, c)
  {
    assert ([h] + t)[0] == h && ([h] + t)[1..] == t;
  }

  /** An element that `x` may not precede ranks strictly below `x`, so it
      ties with nothing `x` ties with. */
  lemma BelowBreaksTie<T(!new)>(x: T, h: T, le: (T, T) -> bool, c: T)
    requires TotalPreorder(le)
    requires !le(x, h)
    ensures le(x, c) && le(c, x) ==> !(le(h, c) && le(c, h))
  {
    assert le(x, c) && le(c, h) ==> le(x, h);
  }

  lemma {:induction false} InsertKeepsTieOrder<T(!new)>(x: T, s: seq<T>, le: (T, T) -> bool, c: T)
    requires TotalPreorder(le)
    ensures Ties(Insert(x, s, le), le, c) ==
      (if le(x, c) && le(c, x) then [x] else []) + Ties(s, le, c)
  {
    if |s| == 0 || le(x, s[0]) {
      TiesCons(x, s, le, c);
    } else {
      var h := s[0];
      var rest := Insert(x, s[1..], le);
      assert Insert(x, s, le) == [h] + rest;
      assert s == [h] + s[1..];
      TiesCons(h, rest, le, c);
      TiesCons(h, s[1..], le, c);
      InsertKeepsTieOrder(x, s[1..], le, c);
      BelowBreaksTie(x, h, le, c);
    }
  }

  /** Stability: sorting never reorders elements that rank level. */
  lemma {:induction false} SortIsStable<T(!new)>(s: seq<T>, le: (T, T) -> bool, c: T)
    requires TotalPreorder(le)
    ensures Ties(Sort(s, le), le, c) == Ties(s, le, c)
  {
    if |s| > 0 {
      SortIsStable(s[1..], le, c);
      InsertKeepsTieOrder(s[0], Sort(s[1..], le), le, c);
    }
  }

  lemma {:induction false} InsertKeepsKeysDistinct<T(!new), K>(x: T, s: seq<T>, le: (T, T) -> bool, key: T -> K)
    requires TotalPreorder(le)
    requires Sorted(s, le)
    requires DistinctKeys(s, key)
    requires forall i :: 0 <= i < |s| ==> key(s[i]) != key(x)
    ensures DistinctKeys(Insert(x, s, le), key)
  {
    if |s| > 0 && !le(x, s[0]) {
      var rest := Insert(x, s[1..], le);
      InsertFacts(x, s[1..], le);
      InsertKeepsKeysDistinct(x, s[1..], le, key);
      forall k | 0 <= k < |rest| ensures key(s[0]) != key(rest[k]) {
        assert rest[k] in rest;
        if rest[k] != x {
          var j :| 0 <= j < |s[1..]| && s[1..][j] == rest[k];
          assert s[j + 1] == rest[k];
        }
      }
      assert Insert(x, s, le) == [s[0]] + rest;
    }
  }

  /** Sorting a sequence whose elements carry distinct keys keeps them distinct. */
  lemma {:induction false} SortKeepsKeysDistinct<T(!new), K>(s: seq<T>, le: (T, T) -> bool, key: T -> K)
    requires TotalPreorder(le)
    requires DistinctKeys(s, key)
    ensures DistinctKeys(Sort(s, le), key)
  {
    if |s| > 0 {
      var sorted := Sort(s[1..], le);
      SortKeepsKeysDistinct(s[1..], le, key);
      forall i | 0 <= i < |sorted| ensures key(sorted[i]) != key(s[0]) {
        assert sorted[i] in sorted;
        var j :| 0 <= j < |s[1..]| && s[1..][j] == sorted[i];
        assert s[j + 1] == sorted[i];
      }
      InsertKeepsKeysDistinct(s[0], sorted, le, key);
    }
  }

  /** Whatever a prefix of a sorted sequence leaves out comes no earlier than
      the prefix's last element, and is only left out once the prefix is full. */
  lemma TakeLeavesOutLater<T>(sorted: seq<T>, n: nat, le: (T, T) -> bool)
    requires Sorted(sorted, le)
    ensures forall x :: x in sorted && x !in Take(sorted, n) ==>
      |Take(sorted, n)| == n && (n > 0 ==> le(sorted[n - 1], x))
  {
    forall x | x in sorted && x !in Take(sorted, n)
      ensures |Take(sorted, n)| == n && (n > 0 ==> le(sorted[n - 1], x))
    {
      var p :| 0 <= p < |sorted| && sorted[p] == x;
      assert p >= |Take(sorted, n)|;
    }
  }
}

=== FILE: table_manager.dfy ===
/** The ranking table: `TableManager` as an abstract value instead of the
    DOM. A table has a header area (`thead`), a body of rows of cells
    (`tbody`), and the title and view-information texts shown beside it. */
module TableManager {
  import opened Rows
  import Text

  /** The seven column headings. */
  const Headers: seq<string> := ["日付", "順位(当時)", "タイトル", "チャンネル", "ジャンル", "再生数", "高評価"]

  /** One body cell. `Count` is a view or like count shown through the
      short number format, whose text is not part of this model. */
  datatype Cell = Plain(text: string) | Link(text: string, href: string) | Count(value: nat)

  datatype NoticeKind = Loading | Failure

  /** The header area: empty, the heading row, or a single notice cell
      spanning `colspan` columns. */
  datatype Head = NoHead | HeaderRow(labels: seq<string>) | Notice(kind: NoticeKind, message: string, colspan: nat)

  datatype Table = Table(
    initialized: bool,
    head: Head,
    body: seq<seq<Cell>>,
    title: string,
    viewInfo: string)

  /** The manager as constructed: nothing found yet. */
  const Fresh: Table := Table(false, NoHead, [], "", "")

  const DefaultLoadingMessage: string := "データを読み込み中..."
  const DefaultErrorMessage: string := "データの取得に失敗しました"
  const ViewInfoPrefix: string := "表示中: "

  /** `init`: succeeds when the table with its `thead` and `tbody` is on the
      page, and does nothing once initialised. */
  function Init(t: Table, elementsPresent: bool): (r: Table)
    ensures r.initialized <==> t.initialized || elementsPresent
    ensures r.head == t.head && r.body == t.body && r.title == t.title && r.viewInfo == t.viewInfo
  {
    if t.initialized then t else t.(initialized := elementsPresent)
  }

  // ---------------------------------------------------------------------------
  // Row projection

  /** `createLinkCell`: a link only when the url holds something besides
      whitespace. */
  function CreateLinkCell(text: string, url: string): (r: Cell)
    ensures r.Link? <==> !Text.Blank(url)
    ensures r.Link? ==> r.href == url
    ensures !r.Count? && r.text == text
  {
    if Text.Trim(url) != "" then Link(text, url) else Plain(text)
  }

  /** `createCell(tr, row[1])`: `content || ''` turns a rank of 0 into the
      empty text; any other rank is written in decimal. */
  function RankText(rank: nat): (r: string)
    ensures r == "" <==> rank == 0
    ensures rank > 0 ==>
      (forall i :: 0 <= i < |r| ==> Text.IsDigit(r[i])) && Text.DecimalValue(r) == rank
  {
    if rank == 0 then "" else Text.NatToString(rank)
  }

  /** The seven cells of one data row: fields 0, 1, 2 (linked to 10), 3, 5,
      7 and 8. */
  function RowCells(row: Row): (r: seq<Cell>)
    ensures |r| == 7
    ensures r[0] == Plain(row.timestamp)
    ensures r[1].Plain? && (r[1].text == "" <==> row.rank == 0)
    ensures !r[2].Count? && r[2].text == row.title
    ensures r[2].Link? <==> !Text.Blank(row.url)
    ensures r[2].Link? ==> r[2].href == row.url
    ensures r[3] == Plain(row.channel)
    ensures r[4] == Plain(row.category)
    ensures r[5] == Count(row.views) && r[6] == Count(row.likes)
  {
    var title := CreateLinkCell(row.title, row.url);
    [ Plain(row.timestamp),
      Plain(RankText(row.rank)),
      title,
      Plain(row.channel),
      Plain(row.category),
      Count(row.views),
      Count(row.likes) ]
  }

  /** `populateData`: one table row per data row, in order. */
  function Populate(rows: seq<Row>): (r: seq<seq<Cell>>)
    ensures |r| == |rows|
    ensures forall i :: 0 <= i < |rows| ==> r[i] == RowCells(rows[i])
  {
    if |rows| == 0 then [] else [RowCells(rows[0])] + Populate(rows[1..])
  }

  /** The outcome of `populateData` as written. */
  datatype Populated = Populated(body: seq<seq<Cell>>, threw: bool)

  /** `populateData` as written: the view cell calls
      `Utils.formatNumberShort`, which `Utils` does not define, so the first
      data row throws a TypeError after its first five cells are in place. */
  function PopulateAsWritten(rows: seq<Row>): (r: Populated)
    ensures r.threw <==> |rows| > 0
    ensures r.threw ==> |r.body| == 1 && r.body[0] == RowCells(rows[0])[..5]
    ensures !r.threw ==> r.body == []
  {
    if |rows| == 0 then Populated([], false)
    else Populated([RowCells(rows[0])[..5]], true)
  }

  /** Any non-empty data leaves a single, incomplete row behind instead of
      the table `Populate` builds. */
  lemma PopulateAsWrittenLosesRows(rows: seq<Row>)
    requires |rows| > 0
    ensures PopulateAsWritten(rows).body != Populate(rows)
    ensures |PopulateAsWritten(rows).body[0]| < |Headers|
  {
    assert |PopulateAsWritten(rows).body[0]| == 5;
    assert |Populate(rows)[0]| == 7;
  }

  // ---------------------------------------------------------------------------
  // Table updates

  /** `updateTable`: ignored before initialisation; otherwise the heading
      row, a fresh body built from `rows`, and the title when one is given. */
  function UpdateTable(t: Table, rows: seq<Row>, title: string): (r: Table)
    ensures !t.initialized ==> r == t
    ensures t.initialized ==>
      && r.initialized
      && r.head == HeaderRow(Headers)
      && r.body == Populate(rows)
      && r.title == (if title == "" then t.title else title)
      && r.viewInfo == t.viewInfo
  {
    if !t.initialized then t
    else
      var filled := t.(head := HeaderRow(Headers), body := Populate(rows));
      if title != "" then UpdateTitle(filled, title) else filled
  }

  /** The outcome of `updateTable` as written: the table it leaves and
      whether it threw. */
  datatype Updated = Updated(table: Table, threw: bool)

  /** `updateTable` as written: `populateData` throws on the first data row,
      so a non-empty update leaves the heading row over one five-cell row,
      never reaches the title, and hands the TypeError to the caller. An
      empty update is the one `UpdateTable` makes. */
  function UpdateTableAsWritten(t: Table, rows: seq<Row>, title: string): (r: Updated)
    ensures r.threw <==> t.initialized && |rows| > 0
    ensures !r.threw ==> r.table == UpdateTable(t, rows, title)
    ensures r.threw ==>
      && r.table.initialized
      && r.table.head == HeaderRow(Headers)
      && |r.table.body| == 1 && r.table.body[0] == RowCells(rows[0])[..5]
      && r.table.title == t.title && r.table.viewInfo == t.viewInfo
  {
    if !t.initialized then Updated(t, false)
    else
      var populated := PopulateAsWritten(rows);
      if populated.threw then Updated(t.(head := HeaderRow(Headers), body := populated.body), true)
      else Updated(UpdateTable(t, rows, title), false)
  }

  /** `showLoading`: an empty body under a loading notice that spans every
      column. The source dereferences `thead`, so the table must be
      initialised. */
  function ShowLoading(t: Table, message: string): (r: Table)
    requires t.initialized
    ensures r.body == [] && r.head == Notice(Loading, message, |Headers|) && r.head.colspan == 7
    ensures r.initialized && r.title == t.title && r.viewInfo == t.viewInfo
  {
    t.(head := Notice(Loading, message, |Headers|), body := [])
  }

  /** `showError`: an empty body under an error notice that spans every
      column. */
  function ShowError(t: Table, message: string): (r: Table)
    requires t.initialized
    ensures r.body == [] && r.head == Notice(Failure, message, |Headers|) && r.head.colspan == 7
    ensures r.initialized && r.title == t.title && r.viewInfo == t.viewInfo
  {
    t.(head := Notice(Failure, message, |Headers|), body := [])
  }

  /** `updateTitle`: only the title changes. */
  function UpdateTitle(t: Table, title: string): (r: Table)
    ensures r.title == title
    ensures r.initialized == t.initialized && r.head == t.head && r.body == t.body && r.viewInfo == t.viewInfo
  {
    t.(title := title)
  }

  /** `updateViewInfo`: the information line reads `表示中: ` and then `info`. */
  function UpdateViewInfo(t: Table, info: string): (r: Table)
    ensures |r.viewInfo| == |ViewInfoPrefix| + |info|
    ensures r.viewInfo[..|ViewInfoPrefix|] == ViewInfoPrefix && r.viewInfo[|ViewInfoPrefix|..] == info
    ensures r.initialized == t.initialized && r.head == t.head && r.body == t.body && r.title == t.title
  {
    t.(viewInfo := ViewInfoPrefix + info)
  }

  // ---------------------------------------------------------------------------
  // CSV export

  /** A cell's `textContent`; a count shows through the short format. */
  function CellText(c: Cell, short: nat -> string): string
  {
    match c
    case Plain(text) => text
    case Link(text, _) => text
    case Count(value) => short(value)
  }

  /** The exported fields of one table row: cell texts without commas. */
  function CsvFields(row: seq<Cell>, short: nat -> string): (r: seq<string>)
    ensures |r| == |row|
    ensures forall i :: 0 <= i < |row| ==> r[i] == Text.Remove(CellText(row[i], short), ',')
  {
    if |row| == 0 then [] else [Text.Remove(CellText(row[0], short), ',')] + CsvFields(row[1..], short)
  }

  function CsvLines(body: seq<seq<Cell>>, short: nat -> string): (r: seq<string>)
    ensures |r| == |body|
    ensures forall k :: 0 <= k < |body| ==> r[k] == Text.Join(CsvFields(body[k], short), ',')
  {
    if |body| == 0 then [] else [Text.Join(CsvFields(body[0], short), ',')] + CsvLines(body[1..], short)
  }

  /** `exportToCSV`: nothing when there are no body rows, otherwise the
      heading line and one line per body row, separated by newlines. */
  function ExportToCsv(t: Table, short: nat -> string): (r: string)
    ensures r == "" <==> !t.initialized || |t.body| == 0
  {
    if !t.initialized || |t.body| == 0 then ""
    else
      var r := Text.Join([Text.Join(Headers, ',')] + CsvLines(t.body, short), '\n');
      assert r[..|Text.Join(Headers, ',')|] == Text.Join(Headers, ',') by { JoinStartsWithFirst([Text.Join(Headers, ',')] + CsvLines(t.body, short), '\n'); }
      assert Headers[0] == "日付";
      r
  }

  lemma JoinStartsWithFirst(parts: seq<string>, sep: char)
    requires |parts| > 0
    ensures |Text.Join(parts, sep)| >= |parts[0]|
    ensures Text.Join(parts, sep)[..|parts[0]|] == parts[0]
  {
  }

  /** No heading holds a comma or a newline. */
  lemma HeadersArePlain()
    ensures forall i :: 0 <= i < |Headers| ==> ',' !in Headers[i] && '\n' !in Headers[i]
  {
    assert Headers[0] == "日付";
  }

  /** Reading the export back: splitting on newlines gives the heading line
      and the body lines, the heading line splits into the headings, and each
      body line splits into that row's cell texts with commas removed —
      provided no cell text holds a newline. */
  lemma CsvReadsBack(t: Table, short: nat -> string)
    requires t.initialized && |t.body| > 0
    requires forall k :: 0 <= k < |t.body| ==> |t.body[k]| > 0
    requires forall k, i :: 0 <= k < |t.body| && 0 <= i < |t.body[k]| ==> '\n' !in CellText(t.body[k][i], short)
    ensures var lines := Text.Split(ExportToCsv(t, short), '\n');
      && |lines| == |t.body| + 1
      && Text.Split(lines[0], ',') == Headers
      && forall k :: 0 <= k < |t.body| ==> Text.Split(lines[k + 1], ',') == CsvFields(t.body[k], short)
  {
    var header := Text.Join(Headers, ',');
    var body := CsvLines(t.body, short);
    HeadersArePlain();
    Text.JoinAvoids(Headers, ',', '\n');
    forall k | 0 <= k < |t.body|
      ensures '\n' !in body[k]
      ensures ',' !in CsvFields(t.body[k], short)[0]
      ensures forall i :: 0 <= i < |t.body[k]| ==> ',' !in CsvFields(t.body[k], short)[i]
    {
      var fields := CsvFields(t.body[k], short);
      forall i | 0 <= i < |fields| ensures '\n' !in fields[i] {
        assert '\n' !in CellText(t.body[k][i], short);
      }
      Text.JoinAvoids(fields, ',', '\n');
    }
    var lines := [header] + body;
    Text.SplitJoin(lines, '\n');
    Text.SplitJoin(Headers, ',');
    forall k | 0 <= k < |t.body|
      ensures Text.Split(lines[k + 1], ',') == CsvFields(t.body[k], short)
    {
      Text.SplitJoin(CsvFields(t.body[k], short), ',');
    }
  }
}

=== FILE: text.dfy ===
/** Strings as sequences of characters (JavaScript `String`):
    lexicographic order, decimal rendering, `trim`, `replace(/,/g, '')`,
    `join` and `split` on a single-character separator. */
module Text {

  /** `a <= b` in character order, as JavaScript compares strings. */
  predicate StrLe(a: string, b: string)
  {
    |a| == 0 || (|b| > 0 && (a[0] < b[0] || (a[0] == b[0] && StrLe(a[1..], b[1..]))))
  }

  lemma {:induction false} StrLeTotal(a: string, b: string)
    ensures StrLe(a, b) || StrLe(b, a)
  {
    if |a| > 0 && |b| > 0 && a[0] == b[0] {
      StrLeTotal(a[1..], b[1..]);
    }
  }

  lemma {:induction false} StrLeTransitive(a: string, b: string, c: string)
    requires StrLe(a, b) && StrLe(b, c)
    ensures StrLe(a, c)
  {
    if |a| > 0 && |b| > 0 && |c| > 0 && a[0] == b[0] && b[0] == c[0] {
      StrLeTransitive(a[1..], b[1..], c[1..]);
    }
  }

  lemma {:induction false} StrLeAntisymmetric(a: string, b: string)
    requires StrLe(a, b) && StrLe(b, a)
    ensures a == b
  {
    if |a| > 0 && |b| > 0 {
      StrLeAntisymmetric(a[1..], b[1..]);
      assert a == [a[0]] + a[1..];
      assert b == [b[0]] + b[1..];
    }
  }

  predicate IsDigit(c: char)
  {
    '0' <= c <= '9'
  }

  function DigitChar(d: nat): char
    requires d < 10
  {
    ['0', '1', '2', '3', '4', '5', '6', '7', '8', '9'][d]
  }

  function DigitValue(c: char): nat
    requires IsDigit(c)
  {
    (c as int) - ('0' as int)
  }

  /** The value of a string of decimal digits. */
  function DecimalValue(s: string): nat
    requires forall i :: 0 <= i < |s| ==> IsDigit(s[i])
  {
    if |s| == 0 then 0 else DecimalValue(s[..|s| - 1]) * 10 + DigitValue(s[|s| - 1])
  }

  /** `String(n)` for a natural number. */
  function NatToString(n: nat): (r: string)
    ensures |r| > 0
    ensures forall i :: 0 <= i < |r| ==> IsDigit(r[i])
    ensures DecimalValue(r) == n
  {
    var last := [DigitChar(n % 10)];
    if n < 10 then last
    else
      var r := NatToString(n / 10) + last;
      assert r[..|r| - 1] == NatToString(n / 10);
      r
  }

  /** Characters JavaScript's `trim` removes: WhiteSpace and LineTerminator. */
  predicate IsTrimmable(c: char)
  {
    || c == '\U{9}' || c == '\U{A}' || c == '\U{B}' || c == '\U{C}' || c == '\U{D}'
    || c == ' ' || c == '\U{A0}' || c == '\U{1680}' || ('\U{2000}' <= c <= '\U{200A}')
    || c == '\U{2028}' || c == '\U{2029}' || c == '\U{202F}' || c == '\U{205F}'
    || c == '\U{3000}' || c == '\U{FEFF}'
  }

  function TrimStart(s: string): (r: string)
    ensures |r| <= |s| && r == s[|s| - |r|..]
    ensures |r| > 0 ==> !IsTrimmable(r[0])
    ensures forall i :: 0 <= i < |s| - |r| ==> IsTrimmable(s[i])
  {
    if |s| > 0 && IsTrimmable(s[0]) then TrimStart(s[1..]) else s
  }

  function TrimEnd(s: string): (r: string)
    ensures |r| <= |s| && r == s[..|r|]
    ensures |r| > 0 ==> !IsTrimmable(r[|r| - 1])
    ensures forall i :: |r| <= i < |s| ==> IsTrimmable(s[i])
  {
    if |s| > 0 && IsTrimmable(s[|s| - 1]) then TrimEnd(s[..|s| - 1]) else s
  }

  /** Nothing but whitespace. */
  predicate Blank(s: string)
  {
    forall i :: 0 <= i < |s| ==> IsTrimmable(s[i])
  }

  /** `s.trim()`. */
  function Trim(s: string): (r: string)
    ensures (r == "") <==> Blank(s)
  {
    var t := TrimStart(s);
    var r := TrimEnd(t);
    assert |t| > 0 ==> s[|s| - |t|] == t[0];
    r
  }

  /** `s.replace(/c/g, '')`: every occurrence of `c` removed. */
  function Remove(s: string, c: char): (r: string)
    ensures c !in r
    ensures forall x :: x in r <==> x in s && x != c
    ensures |r| <= |s|
    ensures c !in s ==> r == s
  {
    if |s| == 0 then ""
    else (if s[0] == c then "" else [s[0]]) + Remove(s[1..], c)
  }

  /** `parts.join(sep)`. */
  function Join(parts: seq<string>, sep: char): string
  {
    if |parts| == 0 then ""
    else if |parts| == 1 then parts[0]
    else parts[0] + [sep] + Join(parts[1..], sep)
  }

  /** A character found in no part and distinct from the separator is not
      in the joined string. */
  lemma {:induction false} JoinAvoids(parts: seq<string>, sep: char, c: char)
    requires c != sep
    requires forall i :: 0 <= i < |parts| ==> c !in parts[i]
    ensures c !in Join(parts, sep)
  {
    if |parts| > 1 {
      JoinAvoids(parts[1..], sep, c);
    }
  }

  /** `s.split(sep)`: the pieces between separators; never empty. */
  function Split(s: string, sep: char): (r: seq<string>)
    ensures |r| > 0
  {
    if |s| == 0 then [""]
    else
      var rest := Split(s[1..], sep);
      if s[0] == sep then [""] + rest
      else [[s[0]] + rest[0]] + rest[1..]
  }

  lemma {:induction false} SplitNoSeparator(s: string, sep: char)
    requires sep !in s
    ensures Split(s, sep) == [s]
  {
    if |s| > 0 {
      SplitNoSeparator(s[1..], sep);
      assert [s[0]] + s[1..] == s;
    }
  }

  lemma {:induction false} SplitAfterPiece(a: string, b: string, sep: char)
    requires sep !in a
    ensures Split(a + [sep] + b, sep) == [a] + Split(b, sep)
  {
    var s := a + [sep] + b;
    if |a| == 0 {
      assert s[1..] == b;
    } else {
      assert s[1..] == a[1..] + [sep] + b;
      SplitAfterPiece(a[1..], b, sep);
      assert [a[0]] + a[1..] == a;
    }
  }

  /** Splitting undoes joining when no piece holds the separator. */
  lemma {:induction false} SplitJoin(parts: seq<string>, sep: char)
    requires |parts| > 0
    requires forall i :: 0 <= i < |parts| ==> sep !in parts[i]
    ensures Split(Join(parts, sep), sep) == parts
  {
    if |parts| == 1 {
      SplitNoSeparator(parts[0], sep);
    } else {
      SplitJoin(parts[1..], sep);
      SplitAfterPiece(parts[0], Join(parts[1..], sep), sep);
      assert [parts[0]] + parts[1..] == parts;
    }
  }
}

=== FILE: utils.dfy ===
/** The pure helpers of the dashboard's `Utils` class. */
module Utils {
  import opened Wrappers
  import opened Rows
  import opened Seqs
  import Text

  // ---------------------------------------------------------------------------
  // Date keys

  /** `s` matches `/^\d{4}\/\d{2}\/\d{2}/` (JavaScript `\d` is ASCII only). */
  predicate StartsWithDateKey(s: string)
  {
    && |s| >= 10
    && Text.IsDigit(s[0]) && Text.IsDigit(s[1]) && Text.IsDigit(s[2]) && Text.IsDigit(s[3])
    && s[4] == '/'
    && Text.IsDigit(s[5]) && Text.IsDigit(s[6])
    && s[7] == '/'
    && Text.IsDigit(s[8]) && Text.IsDigit(s[9])
  }

  /** `getDateOnly`: the leading `YYYY/MM/DD` when there is one, otherwise the
      whole string. */
  function DateOnly(s: string): (r: string)
    ensures r <= s
    ensures StartsWithDateKey(s) ==> r == s[..10]
    ensures !StartsWithDateKey(s) ==> r == s
  {
    if StartsWithDateKey(s) then s[..10] else s
  }

  /** A date key is its own date key, so filtering rows by a key taken from
      the date list always matches the rows it came from. */
  lemma DateOnlyIdempotent(s: string)
    ensures DateOnly(DateOnly(s)) == DateOnly(s)
    ensures StartsWithDateKey(s) ==> |DateOnly(s)| == 10 && StartsWithDateKey(DateOnly(s))
  {
  }

  // ---------------------------------------------------------------------------
  // De-duplication

  /** `removeDuplicatesByUrl`: keeps the first row for each url, in order. */
  function RemoveDuplicatesByUrl(rows: seq<Row>): (r: seq<Row>)
    ensures IsSubseq(r, rows)
    ensures DistinctKeys(r, UrlOf)
    ensures Keys(r, UrlOf) == Keys(rows, UrlOf)
    ensures forall k :: 0 <= k < |r| ==> r[k] in rows
  {
    DistinctBy(rows, UrlOf, {})
  }

  /** For each url the row kept is the first input row carrying it. */
  lemma RemoveDuplicatesKeepsFirst(rows: seq<Row>)
    ensures forall k :: 0 <= k < |RemoveDuplicatesByUrl(rows)| ==>
      exists i :: FirstWithKey(rows, UrlOf, i) && rows[i] == RemoveDuplicatesByUrl(rows)[k]
  {
    assert RemoveDuplicatesByUrl(rows) == DistinctBy(rows, UrlOf, {});
    DistinctByKeepsFirst(rows, UrlOf, {});
  }

  // ---------------------------------------------------------------------------
  // Averages and statistics

  /** The entries `calculateAverage` keeps: `None` stands for a NaN or null entry. */
  function ValidNumbers(numbers: seq<Option<int>>): (r: seq<int>)
    ensures |r| <= |numbers|
  {
    if |numbers| == 0 then []
    else (if numbers[0].Some? then [numbers[0].value] else []) + ValidNumbers(numbers[1..])
  }

  function Sum(xs: seq<int>): int
  {
    if |xs| == 0 then 0 else xs[0] + Sum(xs[1..])
  }

  /** `total / count` over the reals. */
  function Mean(total: int, count: nat): (r: real)
    requires count > 0
    ensures r * (count as real) == total as real
  {
    (total as real) / (count as real)
  }

  /** `calculateAverage`: the mean of the valid entries, 0 when there are none. */
  function CalculateAverage(numbers: seq<Option<int>>): (r: real)
    ensures |ValidNumbers(numbers)| == 0 ==> r == 0.0
    ensures |ValidNumbers(numbers)| > 0 ==>
      r == Mean(Sum(ValidNumbers(numbers)), |ValidNumbers(numbers)|)
  {
    if |numbers| == 0 then 0.0
    else
      var valid := ValidNumbers(numbers);
      if |valid| == 0 then 0.0 else Mean(Sum(valid), |valid|)
  }

  function AsNumbers(xs: seq<int>): (r: seq<Option<int>>)
    ensures |r| == |xs|
    ensures ValidNumbers(r) == xs
  {
    if |xs| == 0 then []
    else
      var r := [Some(xs[0])] + AsNumbers(xs[1..]);
      assert r[1..] == AsNumbers(xs[1..]);
      r
  }

  lemma {:induction false} SumBounds(xs: seq<int>, lo: int, hi: int)
    requires forall i :: 0 <= i < |xs| ==> lo <= xs[i] <= hi
    ensures lo * |xs| <= Sum(xs) <= hi * |xs|
  {
    if |xs| > 0 {
      SumBounds(xs[1..], lo, hi);
    }
  }

  lemma ScaleCancel(a: real, b: real, n: real)
    requires n > 0.0
    requires a * n <= b * n
    ensures a <= b
  {
  }

  lemma MeanBetween(total: int, count: nat, lo: int, hi: int)
    requires count > 0
    requires lo * count <= total <= hi * count
    ensures lo as real <= Mean(total, count) <= hi as real
  {
    var a := Mean(total, count);
    var n := count as real;
    assert (lo * count) as real == (lo as real) * n;
    assert (hi * count) as real == (hi as real) * n;
    ScaleCancel(lo as real, a, n);
    ScaleCancel(a, hi as real, n);
  }

  /** The mean of a non-empty list lies between any lower and upper bound of
      its entries. */
  lemma AverageBetweenBounds(xs: seq<int>, lo: int, hi: int)
    requires |xs| > 0
    requires forall i :: 0 <= i < |xs| ==> lo <= xs[i] <= hi
    ensures lo as real <= CalculateAverage(AsNumbers(xs)) <= hi as real
  {
    SumBounds(xs, lo, hi);
    assert CalculateAverage(AsNumbers(xs)) == Mean(Sum(xs), |xs|);
    MeanBetween(Sum(xs), |xs|, lo, hi);
  }

  /** `data.map(row => row[column])`. */
  function ColumnOf(rows: seq<Row>, c: Column): (r: seq<int>)
    ensures |r| == |rows|
    ensures forall i :: 0 <= i < |rows| ==> r[i] == ColumnValue(rows[i], c)
  {
    if |rows| == 0 then [] else [ColumnValue(rows[0], c)] + ColumnOf(rows[1..], c)
  }

  /** `data.map(row => parseFloat(row[column]) || 0).filter(v => v > 0)`. */
  function PositiveValues(rows: seq<Row>, c: Column): (r: seq<int>)
    ensures |r| <= |rows|
    ensures forall i :: 0 <= i < |r| ==> r[i] > 0
    ensures forall v :: v in r <==> v > 0 && v in ColumnOf(rows, c)
  {
    if |rows| == 0 then []
    else
      var v := ColumnValue(rows[0], c);
      assert ColumnOf(rows, c) == [v] + ColumnOf(rows[1..], c);
      (if v > 0 then [v] else []) + PositiveValues(rows[1..], c)
  }

  /** The positive values keep the column's order. */
  lemma {:induction false} PositiveValuesInOrder(rows: seq<Row>, c: Column)
    ensures IsSubseq(PositiveValues(rows, c), ColumnOf(rows, c))
  {
    if |rows| > 0 {
      PositiveValuesInOrder(rows[1..], c);
      var v := ColumnValue(rows[0], c);
      var column := ColumnOf(rows, c);
      var rest := PositiveValues(rows[1..], c);
      var r := PositiveValues(rows, c);
      assert column[0] == v && column[1..] == ColumnOf(rows[1..], c);
      if v > 0 {
        assert r == [v] + rest;
        assert r[1..] == rest;
      } else {
        assert r == rest;
      }
    }
  }

  /** Each positive value occurs as often as the column holds it, and no
      other value occurs: with `PositiveValuesInOrder`, exactly the column
      filtered by `v > 0`. */
  lemma {:induction false} PositiveValuesCounts(rows: seq<Row>, c: Column)
    ensures forall v :: multiset(PositiveValues(rows, c))[v] ==
                        (if v > 0 then multiset(ColumnOf(rows, c))[v] else 0)
  {
    if |rows| > 0 {
      PositiveValuesCounts(rows[1..], c);
      var v := ColumnValue(rows[0], c);
      var column := ColumnOf(rows, c);
      var tail := ColumnOf(rows[1..], c);
      var rest := PositiveValues(rows[1..], c);
      var r := PositiveValues(rows, c);
      assert column == [v] + tail;
      assert multiset(column) == multiset{v} + multiset(tail);
      if v > 0 {
        assert r == [v] + rest;
        assert multiset(r) == multiset{v} + multiset(rest);
      } else {
        assert r == rest;
      }
    }
  }

  function MinOf(xs: seq<int>): (r: int)
    requires |xs| > 0
    ensures r in xs
    ensures forall i :: 0 <= i < |xs| ==> r <= xs[i]
  {
    if |xs| == 1 then xs[0]
    else
      var m := MinOf(xs[1..]);
      if xs[0] <= m then xs[0] else m
  }

  function MaxOf(xs: seq<int>): (r: int)
    requires |xs| > 0
    ensures r in xs
    ensures forall i :: 0 <= i < |xs| ==> xs[i] <= r
  {
    if |xs| == 1 then xs[0]
    else
      var m := MaxOf(xs[1..]);
      if xs[0] >= m then xs[0] else m
  }

  lemma AverageOfNumbers(xs: seq<int>)
    requires |xs| > 0
    ensures CalculateAverage(AsNumbers(xs)) == Mean(Sum(xs), |xs|)
  {
  }

  datatype Stats = Stats(min: int, max: int, avg: real, count: nat)

  lemma NoPositiveValues(rows: seq<Row>, c: Column)
    requires |PositiveValues(rows, c)| == 0
    ensures forall i :: 0 <= i < |rows| ==> ColumnValue(rows[i], c) == 0
  {
    forall i | 0 <= i < |rows| ensures ColumnValue(rows[i], c) == 0 {
      assert ColumnOf(rows, c)[i] == ColumnValue(rows[i], c);
    }
  }

  lemma SomePositiveValue(rows: seq<Row>, c: Column)
    requires |PositiveValues(rows, c)| > 0
    ensures exists i :: 0 <= i < |rows| && ColumnValue(rows[i], c) != 0
  {
    var values := PositiveValues(rows, c);
    assert values[0] in ColumnOf(rows, c);
    var i :| 0 <= i < |rows| && ColumnOf(rows, c)[i] == values[0];
    assert ColumnValue(rows[i], c) != 0;
  }

  /** `getDataStatistics(data, column)` over the strictly positive values of
      the column; all zero when there are none. */
  function GetDataStatistics(rows: seq<Row>, c: Column): (r: Stats)
    ensures r.count == |PositiveValues(rows, c)|
    ensures r.count == 0 <==> forall i :: 0 <= i < |rows| ==> ColumnValue(rows[i], c) == 0
    ensures r.count == 0 ==> r == Stats(0, 0, 0.0, 0)
    ensures r.count > 0 ==>
      && r.min in PositiveValues(rows, c)
      && r.max in PositiveValues(rows, c)
      && (forall v :: v in PositiveValues(rows, c) ==> r.min <= v <= r.max)
      && r.min as real <= r.avg <= r.max as real
      && r.avg == Mean(Sum(PositiveValues(rows, c)), r.count)
  {
    var values := PositiveValues(rows, c);
    if |values| == 0 then
      NoPositiveValues(rows, c);
      Stats(0, 0, 0.0, 0)
    else
      var lo := MinOf(values);
      var hi := MaxOf(values);
      var avg := CalculateAverage(AsNumbers(values));
      AverageBetweenBounds(values, lo, hi);
      AverageOfNumbers(values);
      SomePositiveValue(rows, c);
      Stats(lo, hi, avg, |values|)
  }
  // ---------------------------------------------------------------------------
  // Category colours

  const DefaultColor: string := "rgba(158, 158, 158, 1)"

  const CategoryColors: map<string, string> := map[
    "All" := "rgba(79, 195, 247, 1)",
    "音楽" := "rgba(236, 21, 97, 1)",
    "エンターテイメント" := "rgba(255, 153, 57, 1)",
    "ゲーム" := "rgba(43, 171, 81, 1)",
    "ハウツーとスタイル" := "rgba(156, 39, 176, 1)",
    "ペットと動物" := "rgba(255, 193, 7, 1)"
  ]

  /** `getCategoryColor`: the fixed colour of a listed category, grey for
      any other name; no listed category is grey. */
  function CategoryColor(category: string): (r: string)
    ensures category in CategoryColors ==> r == CategoryColors[category]
    ensures r == DefaultColor <==> category !in CategoryColors
  {
    if category in CategoryColors then CategoryColors[category] else DefaultColor
  }
}

=== FILE: view_manager.dfy ===
/** The dashboard's `ViewManager`: which of the three views is showing, the
    control buttons, the date selector, the chart and the table, driven by
    the data manager. Every asynchronous step takes its outcome (the
    network response, the script events, the clock readings) as input. */
module ViewManager {
  import opened Wrappers
  import opened Rows
  import opened Seqs
  import Text
  import Jsonp
  import Cache
  import DataManager
  import TableManager

  datatype View = All | Daily | Category

  /** The date `<select>`: its option values in order and its current value.
      The first option is the placeholder, whose value is empty. */
  datatype DateSelect = DateSelect(options: seq<string>, value: string)

  datatype Chart = MainChart | CategoryChart(stats: seq<DataManager.CategoryStats>)

  /** The page as the view manager sees it. `initialized` is the manager's
      own flag; `active` is the set of control buttons carrying the active
      style; `selectorShown` whether the date selector is displayed. */
  datatype Dashboard = Dashboard(
    initialized: bool,
    view: View,
    active: set<View>,
    selectorShown: bool,
    categoryButtonShown: bool,
    select: DateSelect,
    chart: Chart,
    table: TableManager.Table,
    data: DataManager.DataState)

  /** The table is initialised before the view manager runs; the table
      operations dereference its header otherwise. */
  predicate Ready(d: Dashboard)
  {
    d.table.initialized
  }

  /** Exactly the current view's button is active, and the date selector is
      shown exactly in the daily view. */
  predicate Coherent(d: Dashboard)
  {
    d.active == {d.view} && (d.selectorShown <==> d.view == Daily)
  }

  const AllTimeLimit: nat := 50
  const DailyLimit: nat := 50
  const CategoryTableLimit: nat := 20
  const AllTimeTitle: string := "今月の急上昇最大再生数ランキング"
  const AllTimeInfo: string := "全期間での最高再生数 TOP50"
  const CategoryLoadingMessage: string := "カテゴリ分析データを取得中..."
  const CategoryLoadingTitle: string := "カテゴリ分析 - データ取得中..."
  const CategoryTitle: string := "カテゴリ分析 - 全体ランキング TOP20"
  const CategoryFailure: string := "カテゴリ分析データの取得に失敗しました"
  const RefreshFailure: string := "データの更新に失敗しました"
  const InitialFailure: string := "初期データの読み込みに失敗しました"

  function DailyNotFound(date: string): string
  {
    date + "のデータが見つかりませんでした"
  }

  function DailyTitle(date: string): string
  {
    date + " - 急上昇ランキング"
  }

  function DailyInfo(date: string, count: nat): string
  {
    date + "の急上昇ランキング TOP" + Text.NatToString(count)
  }

  function CategoryInfo(count: nat): string
  {
    "カテゴリ別データ分析 (" + Text.NatToString(count) + "カテゴリ)"
  }

  // ---------------------------------------------------------------------------
  // Controls

  /** `updateControlButtons(view)`: the active style moves to that view's
      button alone. */
  function UpdateControlButtons(d: Dashboard, v: View): (r: Dashboard)
    ensures v in r.active && forall w :: w in r.active ==> w == v
    ensures r.view == d.view && r.selectorShown == d.selectorShown && r.table == d.table && r.data == d.data
  {
    d.(active := {v})
  }

  /** `updateDateSelector`: the placeholder followed by one option per
      available date; rebuilding the options selects the placeholder. */
  function FillDateSelect(dates: seq<string>): (r: DateSelect)
    ensures |r.options| == |dates| + 1 && r.options[0] == "" && r.options[1..] == dates
    ensures r.value == ""
  {
    DateSelect([""] + dates, "")
  }

  function UpdateDateSelector(d: Dashboard): (r: Dashboard)
    ensures r.select == FillDateSelect(d.data.availableDates)
    ensures r.view == d.view && r.active == d.active && r.selectorShown == d.selectorShown
    ensures r.table == d.table && r.data == d.data && r.chart == d.chart
  {
    d.(select := FillDateSelect(d.data.availableDates))
  }

  /** Assigning `select.value`: a value no option carries leaves nothing
      selected, and the value reads as empty. */
  function SetValue(s: DateSelect, v: string): (r: DateSelect)
    ensures r.options == s.options
    ensures v in s.options ==> r.value == v
    ensures v !in s.options ==> r.value == ""
  {
    if v in s.options then s.(value := v) else s.(value := "")
  }

  /** `init`: the first call fills the date selector from the data manager
      and marks the manager initialised; any later call returns at once. */
  function InitView(d: Dashboard): (r: Dashboard)
    ensures d.initialized ==> r == d
    ensures !d.initialized ==>
      && r.initialized
      && |r.select.options| == |d.data.availableDates| + 1
      && r.select.options[1..] == d.data.availableDates && r.select.value == ""
      && r.view == d.view && r.table == d.table && r.data == d.data
  {
    if d.initialized then d else UpdateDateSelector(d).(initialized := true)
  }

  /** A second `init` changes nothing, even after the dates have changed. */
  lemma InitViewOnce(d: Dashboard, dates: seq<string>)
    ensures var first := InitView(d);
      InitView(first.(data := first.data.(availableDates := dates))) ==
        first.(data := first.data.(availableDates := dates))
  {
  }

  // ---------------------------------------------------------------------------
  // All-time view

  /** `showAllTimeData`: the fifty most viewed distinct videos. */
  function ShowAllTimeData(d: Dashboard): (r: Dashboard)
    requires Ready(d)
    ensures Ready(r)
    ensures r.table.head == TableManager.HeaderRow(TableManager.Headers)
    ensures r.table.body == TableManager.Populate(DataManager.GetAllTimeTopData(d.data, AllTimeLimit))
    ensures |r.table.body| <= AllTimeLimit
    ensures r.table.title == AllTimeTitle
    ensures r.table.viewInfo == TableManager.ViewInfoPrefix + AllTimeInfo
    ensures r.view == d.view && r.active == d.active && r.selectorShown == d.selectorShown
    ensures r.data == d.data && r.select == d.select && r.chart == d.chart
  {
    var rows := DataManager.GetAllTimeTopData(d.data, AllTimeLimit);
    var t := TableManager.UpdateTable(d.table, rows, "");
    d.(table := TableManager.UpdateViewInfo(TableManager.UpdateTitle(t, AllTimeTitle), AllTimeInfo))
  }

  /** The outcome of a view step as written: the dashboard it leaves and
      whether an exception escaped it. */
  datatype Outcome = Outcome(dash: Dashboard, threw: bool)

  /** `showAllTimeData` as written: the table update throws as soon as the
      ranking has a row, before the title and the information line are
      written. Only an empty data set renders as `ShowAllTimeData` does. */
  function ShowAllTimeDataAsWritten(d: Dashboard): (r: Outcome)
    requires Ready(d)
    ensures Ready(r.dash)
    ensures r.threw <==> |d.data.allData| > 0
    ensures !r.threw ==> r.dash == ShowAllTimeData(d)
    ensures r.threw ==>
      && r.dash.table.head == TableManager.HeaderRow(TableManager.Headers)
      && |r.dash.table.body| == 1 && |r.dash.table.body[0]| == 5
      && r.dash.table.title == d.table.title && r.dash.table.viewInfo == d.table.viewInfo
      && r.dash.(table := d.table) == d
  {
    var rows := DataManager.GetAllTimeTopData(d.data, AllTimeLimit);
    DataManager.TopDataEmpty(d.data, AllTimeLimit);
    var updated := TableManager.UpdateTableAsWritten(d.table, rows, "");
    if updated.threw then Outcome(d.(table := updated.table), true)
    else Outcome(ShowAllTimeData(d), false)
  }

  /** `switchToAllTimeView`. */
  function SwitchToAllTimeView(d: Dashboard): (r: Dashboard)
    requires Ready(d)
    ensures Ready(r) && Coherent(r)
    ensures r.view == All && r.active == {All} && !r.selectorShown && r.chart == MainChart
    ensures r.table.body == TableManager.Populate(DataManager.GetAllTimeTopData(d.data, AllTimeLimit))
    ensures r.table.title == AllTimeTitle
    ensures r.data == d.data && r.select == d.select
  {
    var switched := UpdateControlButtons(d.(view := All), All).(selectorShown := false, chart := MainChart);
    ShowAllTimeData(switched)
  }

  /** `switchToAllTimeView` as written: the view, buttons, selector and
      chart switch before the table update throws. */
  function SwitchToAllTimeViewAsWritten(d: Dashboard): (r: Outcome)
    requires Ready(d)
    ensures Ready(r.dash) && Coherent(r.dash)
    ensures r.dash.view == All && r.dash.chart == MainChart
    ensures r.dash.data == d.data && r.dash.select == d.select
    ensures r.threw <==> |d.data.allData| > 0
    ensures !r.threw ==> r.dash == SwitchToAllTimeView(d)
  {
    var switched := UpdateControlButtons(d.(view := All), All).(selectorShown := false, chart := MainChart);
    ShowAllTimeDataAsWritten(switched)
  }

  // ---------------------------------------------------------------------------
  // Daily view

  /** `showDailyData(date)`: nothing for an empty date; an error notice when
      the date has no rows; otherwise that day's fifty best-ranked rows. */
  function ShowDailyData(d: Dashboard, date: string): (r: Dashboard)
    requires Ready(d)
    ensures Ready(r)
    ensures date == "" ==> r == d
    ensures date != "" && |DataManager.GetDailyData(d.data, date, DailyLimit)| == 0 ==>
      && r.table.body == []
      && r.table.head == TableManager.Notice(TableManager.Failure, DailyNotFound(date), |TableManager.Headers|)
      && r.table.title == d.table.title && r.table.viewInfo == d.table.viewInfo
    ensures date != "" && |DataManager.GetDailyData(d.data, date, DailyLimit)| > 0 ==>
      && r.table.head == TableManager.HeaderRow(TableManager.Headers)
      && r.table.body == TableManager.Populate(DataManager.GetDailyData(d.data, date, DailyLimit))
      && r.table.title == DailyTitle(date)
      && r.table.viewInfo == TableManager.ViewInfoPrefix + DailyInfo(date, |r.table.body|)
    ensures r.view == d.view && r.active == d.active && r.selectorShown == d.selectorShown
    ensures r.data == d.data && r.select == d.select && r.chart == d.chart
  {
    if date == "" then d
    else
      var rows := DataManager.GetDailyData(d.data, date, DailyLimit);
      if |rows| == 0 then d.(table := TableManager.ShowError(d.table, DailyNotFound(date)))
      else
        var t := TableManager.UpdateTable(d.table, rows, "");
        d.(table := TableManager.UpdateViewInfo(TableManager.UpdateTitle(t, DailyTitle(date)), DailyInfo(date, |rows|)))
  }

  /** A rendered day shows only rows of that day, best rank first, at most
      fifty of them, and as many as the day has up to that bound. */
  lemma DailyTableShowsThatDay(d: Dashboard, date: string)
    requires Ready(d) && date != ""
    ensures var rows := DataManager.GetDailyData(d.data, date, DailyLimit);
      && |ShowDailyData(d, date).table.body| == |rows|
      && |rows| <= DailyLimit
      && (|rows| == 0 <==> forall x :: x in d.data.allData ==> DataManager.DateKeyOf(x) != date)
      && forall k :: 0 <= k < |rows| ==> DataManager.DateKeyOf(rows[k]) == date
  {
    var rows := DataManager.GetDailyData(d.data, date, DailyLimit);
    var matching := DataManager.RowsOn(d.data.allData, date);
    if |rows| == 0 {
      assert |matching| == 0;
      forall x | x in d.data.allData ensures DataManager.DateKeyOf(x) != date {
      }
    } else {
      assert rows[0] in d.data.allData && DataManager.DateKeyOf(rows[0]) == date;
    }
  }

  /** `switchToDailyView`: the selector appears and, when there are dates,
      the newest is selected and rendered. */
  function SwitchToDailyView(d: Dashboard): (r: Dashboard)
    requires Ready(d)
    ensures Ready(r) && Coherent(r)
    ensures r.view == Daily && r.active == {Daily} && r.selectorShown && r.chart == MainChart
    ensures r.data == d.data
    ensures |d.data.availableDates| == 0 ==> r.table == d.table && r.select == d.select
    ensures |d.data.availableDates| > 0 ==>
      var newest := d.data.availableDates[0];
      && r.select == SetValue(d.select, newest)
      && (newest != "" && |DataManager.GetDailyData(d.data, newest, DailyLimit)| > 0 ==>
            r.table.body == TableManager.Populate(DataManager.GetDailyData(d.data, newest, DailyLimit))
            && r.table.title == DailyTitle(newest))
  {
    var switched := UpdateControlButtons(d.(view := Daily), Daily).(selectorShown := true, chart := MainChart);
    var dates := d.data.availableDates;
    if |dates| > 0 then
      ShowDailyData(switched.(select := SetValue(switched.select, dates[0])), dates[0])
    else switched
  }

  /** The newest date the daily view opens on always has rows: it is the date
      key of some row, and a key is its own key. */
  lemma NewestDateHasRows(d: Dashboard)
    requires Ready(d)
    requires d.data.availableDates == DataManager.AvailableDates(d.data.allData)
    requires |d.data.availableDates| > 0
    ensures |DataManager.GetDailyData(d.data, d.data.availableDates[0], DailyLimit)| > 0
  {
    var newest := d.data.availableDates[0];
    assert newest in DataManager.AvailableDates(d.data.allData);
    var x :| x in d.data.allData && DataManager.DateKeyOf(x) == newest;
    assert x in DataManager.RowsOn(d.data.allData, newest);
  }

  /** A `change` of the date selector renders the chosen date only in the
      daily view. */
  function DateChanged(d: Dashboard, choice: string): (r: Dashboard)
    requires Ready(d)
    ensures Ready(r)
    ensures r.select == SetValue(d.select, choice)
    ensures d.view != Daily || r.select.value == "" ==> r.table == d.table
    ensures d.view == Daily && r.select.value != "" ==>
      r == ShowDailyData(d.(select := r.select), r.select.value)
    ensures r.view == d.view && r.active == d.active && r.selectorShown == d.selectorShown && r.data == d.data
  {
    var picked := d.(select := SetValue(d.select, choice));
    if picked.select.value != "" && d.view == Daily then ShowDailyData(picked, picked.select.value)
    else picked
  }

  /** The 表示 button: renders the selected date in whatever view is current;
      with no date selected it only raises an alert, which is not modelled. */
  function LoadDateClicked(d: Dashboard): (r: Dashboard)
    requires Ready(d)
    ensures Ready(r)
    ensures d.select.value == "" ==> r == d
    ensures r == ShowDailyData(d, d.select.value)
  {
    ShowDailyData(d, d.select.value)
  }

  // ---------------------------------------------------------------------------
  // Category view

  /** The synchronous part of `switchToCategoryView`, up to the fetch. */
  function BeginCategoryView(d: Dashboard): (r: Dashboard)
    requires Ready(d)
    ensures Ready(r) && Coherent(r)
    ensures r.view == Category && r.active == {Category} && !r.selectorShown
    ensures r.table.body == []
    ensures r.table.head == TableManager.Notice(TableManager.Loading, CategoryLoadingMessage, |TableManager.Headers|)
    ensures r.table.title == CategoryLoadingTitle
    ensures r.data == d.data && r.chart == d.chart && r.select == d.select
  {
    var switched := UpdateControlButtons(d.(view := Category), Category).(selectorShown := false);
    var t := TableManager.ShowLoading(switched.table, CategoryLoadingMessage);
    switched.(table := TableManager.UpdateTitle(t, CategoryLoadingTitle))
  }

  /** The rows of the overall bucket, or none when it is absent. */
  function OverallRows(buckets: seq<DataManager.Bucket>): (r: seq<Row>)
    ensures DataManager.FindBucket(buckets, DataManager.OverallName).None? ==> r == []
    ensures DataManager.FindBucket(buckets, DataManager.OverallName).Some? ==>
      r == DataManager.FindBucket(buckets, DataManager.OverallName).value.data
  {
    match DataManager.FindBucket(buckets, DataManager.OverallName)
    case Some(b) => b.data
    case None => []
  }

  /** The rest of `switchToCategoryView` once the fetch has settled. */
  function FinishCategoryView(d: Dashboard, fetched: DataManager.BucketsFetch): (r: Dashboard)
    requires Ready(d)
    ensures Ready(r)
    ensures r.view == d.view && r.active == d.active && r.selectorShown == d.selectorShown
    ensures r.data == fetched.state && r.select == d.select
    ensures fetched.result.Err? ==>
      && r.table.body == []
      && r.table.head == TableManager.Notice(TableManager.Failure, CategoryFailure, |TableManager.Headers|)
      && r.table.title == d.table.title
      && r.chart == d.chart
    ensures fetched.result.Ok? ==>
      var buckets := fetched.result.value;
      && r.chart == CategoryChart(DataManager.PrepareCategoryStatistics(buckets))
      && r.table.body == TableManager.Populate(Take(OverallRows(buckets), CategoryTableLimit))
      && |r.table.body| <= CategoryTableLimit
      && r.table.title == CategoryTitle
      && r.table.viewInfo == TableManager.ViewInfoPrefix + CategoryInfo(|buckets|)
  {
    var d' := d.(data := fetched.state);
    match fetched.result
    case Err(_) => d'.(table := TableManager.ShowError(d'.table, CategoryFailure))
    case Ok(buckets) =>
      var stats := DataManager.PrepareCategoryStatistics(buckets);
      var rows := Take(OverallRows(buckets), CategoryTableLimit);
      var t := TableManager.UpdateTable(d'.table, rows, "");
      var t' := TableManager.UpdateViewInfo(TableManager.UpdateTitle(t, CategoryTitle), CategoryInfo(|buckets|));
      d'.(chart := CategoryChart(stats), table := t')
  }

  /** `switchToCategoryView`: the view is the category view before the fetch
      starts and stays so whatever the fetch does. */
  function SwitchToCategoryView(d: Dashboard, now: int, traces: seq<seq<Jsonp.Event>>, fetchedAt: int): (r: Dashboard)
    requires Ready(d)
    requires |traces| == |DataManager.Categories|
    ensures Ready(r) && Coherent(r)
    ensures r.view == Category && r.active == {Category} && !r.selectorShown
    ensures var fetched := DataManager.FetchMultipleCategories(d.data, now, traces, fetchedAt);
      && r.data == fetched.state
      && (fetched.result.Err? ==>
            r.table.body == [] &&
            r.table.head == TableManager.Notice(TableManager.Failure, CategoryFailure, |TableManager.Headers|))
      && (fetched.result.Ok? ==> r.table.title == CategoryTitle)
  {
    FinishCategoryView(BeginCategoryView(d), DataManager.FetchMultipleCategories(d.data, now, traces, fetchedAt))
  }

  /** On success the category table shows the first twenty rows of the
      `All` category's answer without its header row, and the view
      information counts six categories. */
  lemma CategoryTableShowsOverall(d: Dashboard, now: int, traces: seq<seq<Jsonp.Event>>, fetchedAt: int)
    requires Ready(d)
    requires |traces| == |DataManager.Categories|
    requires DataManager.FetchMultipleCategories(d.data, now, traces, fetchedAt).result.Ok?
    ensures var answers := DataManager.Answers(d.data, now, traces, fetchedAt);
      var r := SwitchToCategoryView(d, now, traces, fetchedAt);
      && r.table.body == TableManager.Populate(Take(DropFirst(answers[0].value), CategoryTableLimit))
      && r.table.viewInfo == TableManager.ViewInfoPrefix + CategoryInfo(6)
  {
    var fetched := DataManager.FetchMultipleCategories(d.data, now, traces, fetchedAt);
    var buckets := fetched.result.value;
    assert buckets[0].name == DataManager.DisplayName("All") == DataManager.OverallName;
    assert DataManager.FindBucket(buckets, DataManager.OverallName) == Some(buckets[0]);
    assert OverallRows(buckets) == buckets[0].data;
  }

  /** The dashboard button reveals the category button and opens the
      category view. */
  function DashboardClicked(d: Dashboard, now: int, traces: seq<seq<Jsonp.Event>>, fetchedAt: int): (r: Dashboard)
    requires Ready(d)
    requires |traces| == |DataManager.Categories|
    ensures r.categoryButtonShown && Ready(r) && Coherent(r)
    ensures r.view == Category && r.active == {Category} && !r.selectorShown
    ensures var fetched := DataManager.FetchMultipleCategories(d.data, now, traces, fetchedAt);
      && r.data == fetched.state
      && (fetched.result.Err? ==>
            r.table.body == [] &&
            r.table.head == TableManager.Notice(TableManager.Failure, CategoryFailure, |TableManager.Headers|))
      && (fetched.result.Ok? ==> r.table.title == CategoryTitle)
  {
    SwitchToCategoryView(d.(categoryButtonShown := true), now, traces, fetchedAt)
  }

  /** `switchToCategoryView` over the as-written category fetch. */
  function SwitchToCategoryViewAsWritten(d: Dashboard, now: int): (r: Dashboard)
    requires Ready(d)
    ensures Ready(r) && r.view == Category
    ensures r.data == DataManager.FetchMultipleCategoriesAsWritten(d.data, now).state
  {
    FinishCategoryView(BeginCategoryView(d), DataManager.FetchMultipleCategoriesAsWritten(d.data, now))
  }

  /** As written, the category view can never show data once the cache
      holds no category entry, which is always the case: it ends on the
      error notice. */
  lemma CategoryViewAlwaysFailsAsWritten(d: Dashboard, now: int)
    requires Ready(d)
    requires forall c :: c in DataManager.Categories ==> Cache.CategoryKey(c) !in d.data.cache
    ensures SwitchToCategoryViewAsWritten(d, now).table.head ==
      TableManager.Notice(TableManager.Failure, CategoryFailure, |TableManager.Headers|)
    ensures SwitchToCategoryViewAsWritten(d, now).table.body == []
  {
    DataManager.CategoryFetchAlwaysFailsAsWritten(d.data, now, now);
  }

  // ---------------------------------------------------------------------------
  // Refresh and first load

  /** The main fetch that follows `clearCache`. */
  function RefetchMain(d: Dashboard, now: int, response: DataManager.MainResponse, fetchedAt: int): DataManager.MainFetch
  {
    DataManager.FetchMain(DataManager.ClearCache(d.data), now, response, fetchedAt)
  }

  /** After the refetch the cache holds at most the main entry, and a failed
      refetch keeps the rows. */
  lemma RefetchKeepsOnlyMain(d: Dashboard, now: int, response: DataManager.MainResponse, fetchedAt: int)
    ensures RefetchMain(d, now, response, fetchedAt).state.cache.Keys <= {Cache.MainKey}
    ensures RefetchMain(d, now, response, fetchedAt).result.Err? ==>
      RefetchMain(d, now, response, fetchedAt).state.allData == d.data.allData
  {
    var cleared := DataManager.ClearCache(d.data);
    assert cleared.cache == Cache.Cleared;
  }

  /** `refreshCurrentView` as written. In the daily view the selector is
      rebuilt before its value is read, so the value is always the
      placeholder's and the day shown is never re-rendered. In the all-time
      view the table update throws once there is a row, and the catch shows
      the refresh error. The category view runs the as-written category
      fetch on the cleared cache, which rejects. */
  function RefreshCurrentViewAsWritten(d: Dashboard, now: int, response: DataManager.MainResponse,
                                       fetchedAt: int): (r: Dashboard)
    requires Ready(d)
    ensures Ready(r) && r.view == d.view
    ensures d.view == Category ==>
      && r.table.body == []
      && r.table.head == TableManager.Notice(TableManager.Failure, CategoryFailure, |TableManager.Headers|)
    ensures d.view != Category && RefetchMain(d, now, response, fetchedAt).result.Err? ==>
      && r.table.body == []
      && r.table.head == TableManager.Notice(TableManager.Failure, RefreshFailure, |TableManager.Headers|)
    ensures d.view == All && RefetchMain(d, now, response, fetchedAt).result.Ok? ==>
      var refreshed := RefetchMain(d, now, response, fetchedAt).state;
      && r.data == refreshed
      && (|refreshed.allData| > 0 ==>
            && r.table.body == []
            && r.table.head == TableManager.Notice(TableManager.Failure, RefreshFailure, |TableManager.Headers|))
      && (|refreshed.allData| == 0 ==> r.table.body == [] && r.table.title == AllTimeTitle)
    ensures d.view == Daily && RefetchMain(d, now, response, fetchedAt).result.Ok? ==>
      r.table == d.table && r.select.value == ""
  {
    if d.view == Category then
      var cleared := d.(data := DataManager.ClearCache(d.data));
      assert !DataManager.CategoryCached(cleared.data.cache, DataManager.Categories[0], now);
      SwitchToCategoryViewAsWritten(cleared, now)
    else ShowRefreshedAsWritten(d, RefetchMain(d, now, response, fetchedAt))
  }

  /** The as-written refresh outside the category view, once the main fetch
      has settled. */
  function ShowRefreshedAsWritten(d: Dashboard, fetched: DataManager.MainFetch): (r: Dashboard)
    requires Ready(d) && d.view != Category
    ensures Ready(r) && r.view == d.view
    ensures fetched.result.Err? ==>
      && r.table.body == []
      && r.table.head == TableManager.Notice(TableManager.Failure, RefreshFailure, |TableManager.Headers|)
    ensures d.view == All && fetched.result.Ok? ==>
      && r.data == fetched.state
      && (|fetched.state.allData| > 0 ==>
            && r.table.body == []
            && r.table.head == TableManager.Notice(TableManager.Failure, RefreshFailure, |TableManager.Headers|))
      && (|fetched.state.allData| == 0 ==> r.table.body == [] && r.table.title == AllTimeTitle)
    ensures d.view == Daily && fetched.result.Ok? ==> r.table == d.table && r.select.value == ""
  {
    var d' := d.(data := fetched.state);
    if fetched.result.Err? then d'.(table := TableManager.ShowError(d'.table, RefreshFailure))
    else
      var filled := UpdateDateSelector(d');
      if d.view == All then
        var shown := ShowAllTimeDataAsWritten(filled);
        if shown.threw then shown.dash.(table := TableManager.ShowError(shown.dash.table, RefreshFailure))
        else shown.dash
      else ShowDailyData(filled, filled.select.value)
  }

  /** `refreshCurrentView` with the selected date read before the selector
      is rebuilt, and selected again afterwards. */
  function RefreshCurrentView(d: Dashboard, now: int, response: DataManager.MainResponse,
                              traces: seq<seq<Jsonp.Event>>, fetchedAt: int): (r: Dashboard)
    requires Ready(d)
    requires |traces| == |DataManager.Categories|
    ensures Ready(r) && r.view == d.view
    ensures Coherent(d) ==> Coherent(r)
    ensures d.view != Category ==>
      r.data.cache.Keys <= {Cache.MainKey}
    ensures d.view != Category && RefetchMain(d, now, response, fetchedAt).result.Err? ==>
      && r.table.body == []
      && r.table.head == TableManager.Notice(TableManager.Failure, RefreshFailure, |TableManager.Headers|)
      && r.data.allData == d.data.allData
    ensures d.view == All && RefetchMain(d, now, response, fetchedAt).result.Ok? ==>
      r.table.body == TableManager.Populate(DataManager.GetAllTimeTopData(r.data, AllTimeLimit))
    ensures d.view == Daily && RefetchMain(d, now, response, fetchedAt).result.Ok? ==>
      var current := d.select.value;
      && r.data == RefetchMain(d, now, response, fetchedAt).state
      && (current in r.data.availableDates ==> r.select.value == current)
      && (current != "" && |DataManager.GetDailyData(r.data, current, DailyLimit)| > 0 ==>
            r.table.body == TableManager.Populate(DataManager.GetDailyData(r.data, current, DailyLimit))
            && r.table.title == DailyTitle(current))
  {
    if d.view == Category then
      SwitchToCategoryView(d.(data := DataManager.ClearCache(d.data)), now, traces, fetchedAt)
    else
      var fetched := RefetchMain(d, now, response, fetchedAt);
      RefetchKeepsOnlyMain(d, now, response, fetchedAt);
      ShowRefreshed(d, fetched)
  }

  /** The corrected refresh outside the category view, once the main fetch
      has settled: the refresh error, or the refreshed view with the date
      that was selected before the selector was rebuilt. */
  function ShowRefreshed(d: Dashboard, fetched: DataManager.MainFetch): (r: Dashboard)
    requires Ready(d) && d.view != Category
    ensures Ready(r) && r.view == d.view && r.active == d.active && r.selectorShown == d.selectorShown
    ensures r.data == fetched.state
    ensures fetched.result.Err? ==>
      && r.table.body == []
      && r.table.head == TableManager.Notice(TableManager.Failure, RefreshFailure, |TableManager.Headers|)
    ensures d.view == All && fetched.result.Ok? ==>
      r.table.body == TableManager.Populate(DataManager.GetAllTimeTopData(r.data, AllTimeLimit))
    ensures d.view == Daily && fetched.result.Ok? ==>
      var current := d.select.value;
      && (current in r.data.availableDates ==> r.select.value == current)
      && (current != "" && |DataManager.GetDailyData(r.data, current, DailyLimit)| > 0 ==>
            r.table.body == TableManager.Populate(DataManager.GetDailyData(r.data, current, DailyLimit))
            && r.table.title == DailyTitle(current))
  {
    var current := d.select.value;
    var d' := d.(data := fetched.state);
    if fetched.result.Err? then d'.(table := TableManager.ShowError(d'.table, RefreshFailure))
    else
      var filled := UpdateDateSelector(d');
      if d.view == All then ShowAllTimeData(filled)
      else
        assert current in fetched.state.availableDates ==> current in filled.select.options;
        var reselected := filled.(select := SetValue(filled.select, current));
        ShowDailyData(reselected, current)
  }

  /** The input that shows the difference: a daily view showing a date that
      still has rows after the refresh. As written the table keeps its old
      contents; the corrected refresh renders the refreshed rows of that
      date. */
  lemma DailyRefreshCounterexample(d: Dashboard, now: int, response: DataManager.MainResponse,
                                   traces: seq<seq<Jsonp.Event>>, fetchedAt: int)
    requires Ready(d) && d.view == Daily
    requires |traces| == |DataManager.Categories|
    requires d.select.value != ""
    requires RefetchMain(d, now, response, fetchedAt).result.Ok?
    requires |DataManager.GetDailyData(RefetchMain(d, now, response, fetchedAt).state, d.select.value, DailyLimit)| > 0
    requires d.table.body != TableManager.Populate(
      DataManager.GetDailyData(RefetchMain(d, now, response, fetchedAt).state, d.select.value, DailyLimit))
    ensures RefreshCurrentViewAsWritten(d, now, response, fetchedAt).table == d.table
    ensures RefreshCurrentView(d, now, response, traces, fetchedAt).table.body ==
      TableManager.Populate(DataManager.GetDailyData(RefetchMain(d, now, response, fetchedAt).state, d.select.value, DailyLimit))
    ensures RefreshCurrentViewAsWritten(d, now, response, fetchedAt).table !=
      RefreshCurrentView(d, now, response, traces, fetchedAt).table
  {
  }

  /** `loadInitialData`: a loading notice, the main fetch, then the all-time
      view; a rejected fetch leaves the initial-load error notice. */
  function LoadInitialData(d: Dashboard, now: int, response: DataManager.MainResponse, fetchedAt: int): (r: Dashboard)
    requires Ready(d)
    ensures Ready(r)
    ensures DataManager.FetchMain(d.data, now, response, fetchedAt).result.Err? ==>
      && r.table.body == []
      && r.table.head == TableManager.Notice(TableManager.Failure, InitialFailure, |TableManager.Headers|)
      && r.data == d.data && r.view == d.view
    ensures DataManager.FetchMain(d.data, now, response, fetchedAt).result.Ok? ==>
      && Coherent(r) && r.view == All
      && r.data == DataManager.FetchMain(d.data, now, response, fetchedAt).state
      && r.select == FillDateSelect(r.data.availableDates)
      && r.table.body == TableManager.Populate(DataManager.GetAllTimeTopData(r.data, AllTimeLimit))
  {
    var loading := d.(table := TableManager.ShowLoading(d.table, TableManager.DefaultLoadingMessage));
    var fetched := DataManager.FetchMain(d.data, now, response, fetchedAt);
    if fetched.result.Err? then loading.(table := TableManager.ShowError(loading.table, InitialFailure))
    else SwitchToAllTimeView(UpdateDateSelector(loading.(data := fetched.state)))
  }

  /** `loadInitialData` as written: once the fetch succeeds with any data
      row, `switchToAllTimeView` throws in the table update and the catch
      replaces the table with the initial-load error. Only a failed fetch or
      an empty data set end as `LoadInitialData` does. */
  function LoadInitialDataAsWritten(d: Dashboard, now: int, response: DataManager.MainResponse, fetchedAt: int): (r: Dashboard)
    requires Ready(d)
    ensures Ready(r)
    ensures var fetched := DataManager.FetchMain(d.data, now, response, fetchedAt);
      fetched.result.Err? || |fetched.state.allData| == 0 ==> r == LoadInitialData(d, now, response, fetchedAt)
    ensures var fetched := DataManager.FetchMain(d.data, now, response, fetchedAt);
      fetched.result.Ok? && |fetched.state.allData| > 0 ==>
        && r.table.body == []
        && r.table.head == TableManager.Notice(TableManager.Failure, InitialFailure, |TableManager.Headers|)
        && r.table.title == d.table.title
        && Coherent(r) && r.view == All && r.chart == MainChart
        && r.data == fetched.state
        && r.select == FillDateSelect(r.data.availableDates)
  {
    var loading := d.(table := TableManager.ShowLoading(d.table, TableManager.DefaultLoadingMessage));
    var fetched := DataManager.FetchMain(d.data, now, response, fetchedAt);
    if fetched.result.Err? then loading.(table := TableManager.ShowError(loading.table, InitialFailure))
    else
      var switched := SwitchToAllTimeViewAsWritten(UpdateDateSelector(loading.(data := fetched.state)));
      if switched.threw then switched.dash.(table := TableManager.ShowError(switched.dash.table, InitialFailure))
      else switched.dash
  }

  /** The input that shows the difference: a first load whose spreadsheet
      holds a data row. As written the page ends on the initial-load error
      with an empty table; the corrected load shows the ranking. */
  lemma InitialLoadCounterexample(d: Dashboard, body: seq<Row>, now: int)
    requires Ready(d)
    requires Cache.MainKey !in d.data.cache
    requires |body| >= 2
    ensures var response := DataManager.Response(true, 200, body);
      && LoadInitialDataAsWritten(d, now, response, now).table.head ==
           TableManager.Notice(TableManager.Failure, InitialFailure, |TableManager.Headers|)
      && LoadInitialDataAsWritten(d, now, response, now).table.body == []
      && |LoadInitialData(d, now, response, now).table.body| > 0
  {
    var response := DataManager.Response(true, 200, body);
    var fetched := DataManager.FetchMain(d.data, now, response, now);
    assert fetched.requested;
    assert fetched.result.Ok?;
    assert fetched.state.allData == DropFirst(body);
    DataManager.TopDataEmpty(fetched.state, AllTimeLimit);
  }
}

=== FILE: wrappers.dfy ===
/** Failure-carrying wrappers used across the dashboard model. */
module Wrappers {

  datatype Option<+T> = None | Some(value: T)

  /** The outcome of an operation that may reject (a thrown error or a
      rejected promise in the dashboard). */
  datatype Result<+R, +E> = Ok(value: R) | Err(error: E)
}
